=== FILE: README.md ===
# Voice widget: a functional model in Dafny

This project models the control logic of an embeddable voice-chat widget. The widget joins a
media room through a third-party WebRTC library. It fetches its access token from a small HTTP
endpoint. When it runs inside an iframe, it talks to the hosting page with cross-document
messages. The media transport belongs to the library and is not modelled. What is modelled is
the sequential logic around it. Every operation is a pure transition function, and each
external outcome is an input: the token fetch, the room join, the capability and permission
checks, and the clock.

- `LiveKitClient` (frontend/src/lib/livekit.ts) models the connection facade. It holds the
  connection state, the room (as an abstract status, a microphone flag and room info) and the
  widget configuration. It covers connect, disconnect, toggle-microphone, the room's
  Disconnected and quality events, and the shallow-merge state update. Each operation also
  returns what the state-change listener saw, in order (`Notice`). Connect also returns the
  token request it sent.
- `VoiceWidget` (frontend/src/components/VoiceWidget.tsx) models the widget controller: its
  React state, its handlers, the auto-connect gate, and the derivations the compact panel
  shows (status text and icon, quality indicator, button enablement).
- `IframeWidget` (frontend/src/components/IframeWidget.tsx) models the host bridge. It covers
  the default configuration, the origin-checked message handler, the outbound message shapes,
  and the re-initialisation of the voice widget whenever the configuration object changes.
- `Standalone` (frontend/src/widget.tsx) models the mapping from query parameters to the
  configuration.
- `TokenApi` (api/token.py) models both token entry points. The serverless `handler` and the
  stand-alone `TokenHandler` are covered, with method dispatch, credential checks, body
  decoding, field defaults and the JWT claim set. A token is its claims plus the key and the
  algorithm name, because signing is not modelled.
- `Decimal` renders the `user-<n>` participant names. `Types` holds the shared records.
  `Basics` holds `Option`, `Result` and `Outcome`.

Behaviour of the code that the model makes explicit:

- At rest, `isConnected` and `isConnecting` are never both true: after every completed
  operation or event the two flags are apart (`LiveKitClient.RunKeepsFlagsApart`). The
  transient 'connecting' notice is different. Connect's first state update (livekit.ts:69) sets
  `isConnecting` without clearing `isConnected`. When the room is no longer connected while the
  state still says it is, for example while the library reconnects, the listener is told both
  flags at once (`LiveKitClient.ConnectOverStaleSession`). `LiveKitClient.BothFlagsReachable`
  gives a concrete run from a new client that gets there. The panel then reads "connecting"
  while it offers the disconnect button (`VoiceWidget.BothFlagsPanel`).
- The Disconnected event tests the numeric reason code for truthiness (livekit.ts:205). A
  reason code of 0 is falsy, so no error is recorded for it.
- A failed join still leaves the new room object in the client, because livekit.ts:75 runs
  before the join at line 96. After such a failure, toggle-microphone does not throw 'Not
  connected to room'. Whether the switch of the microphone then succeeds is the library's
  answer, which is an input of the model.
- Suppose the microphone cannot be switched on after a successful join. Then the room is
  connected but the state is not. Every later connect returns at once without a request, and
  the panel shows an enabled connect button and no disconnect button
  (`LiveKitClient.MicrophoneFailureBlocksReconnect`, `VoiceWidget.MicrophoneFailureStrandsPanel`).
- The cleanup that runs before a new configuration takes effect calls the client's
  `disconnect` directly, not the widget's disconnect handler. The widget's microphone flag is
  therefore not cleared (`IframeWidget.Reconfigure`).
- An error string shows in the status line only when it is non-empty, which is JavaScript
  truthiness.

## Model

| member | source | states |
|---|---|---|
| Decimal.ToDecimal | frontend/src/lib/livekit.ts:71 | a rendered number is a non-empty run of digits with no leading zero unless it is 0 |
| Decimal.DecimalRoundTrip | frontend/src/lib/livekit.ts:71 | reading the rendered digits back gives the number, so rendering loses nothing |
| Decimal.DecimalInjective | frontend/src/lib/livekit.ts:71 | different numbers never render the same |
| Decimal.UserName | api/token.py:161 | a generated participant name is `user-` followed by digits only |
| Decimal.UserNameInjective | api/token.py:161 | two generated names are equal only for the same clock reading |
| LiveKitClient.New | frontend/src/lib/livekit.ts:18-27 | a new client has no room and is not connected, connecting or recording, with no error and unknown quality |
| LiveKitClient.Merge | frontend/src/lib/livekit.ts:268-270 | every field named by the update takes its new value; every field it omits keeps the old one |
| LiveKitClient.MergeNoUpdate | frontend/src/lib/livekit.ts:268-270 | an update naming no field leaves the state as it was |
| LiveKitClient.MergeThen | frontend/src/lib/livekit.ts:268-270 | two successive updates act as one update whose later keys win |
| LiveKitClient.MergeIdempotent | frontend/src/lib/livekit.ts:268-270 | repeating an update changes nothing further |
| LiveKitClient.MicrophoneEnabled | frontend/src/lib/livekit.ts:158-160 | the microphone counts as on only if a room exists and its microphone is on |
| LiveKitClient.FetchToken | frontend/src/lib/livekit.ts:38-56 | a token is obtained exactly on a 2xx answer with a body; every other outcome fails with 'Failed to get authentication token' |
| LiveKitClient.TokenFailuresIndistinguishable | frontend/src/lib/livekit.ts:38-56 | a non-2xx answer, an unreadable body and a network failure leave connect in exactly the same place, whatever the room would have done |
| LiveKitClient.ParticipantFor | frontend/src/lib/livekit.ts:71 | the token is requested for the configured participant if non-empty, else for `user-<now>` |
| LiveKitClient.FailureText | frontend/src/lib/livekit.ts:113 | a failed connect stores the error's message, or 'Connection failed' for a non-Error value |
| LiveKitClient.Connect | frontend/src/lib/livekit.ts:62-117 | with the room already connected nothing happens and nothing is sent; otherwise exactly one token request for the configured room goes out and the first reported state is connecting with no error. Success holds exactly when the token and the join both succeed, and ends connected, not connecting, error-free, in the joined room with its name and head count and the microphone on. A token failure ends failed with 'Failed to get authentication token' and keeps the old room. A failed join or microphone switch rethrows that very value, stores its message (or 'Connection failed'), and keeps the new room: disconnected after a failed join, connected after a failed microphone switch, microphone off either way. Recording and quality are untouched |
| LiveKitClient.Disconnect | frontend/src/lib/livekit.ts:122-135 | whether or not a room existed, the room is gone and the client equals a new one |
| LiveKitClient.ToggleMicrophone | frontend/src/lib/livekit.ts:140-153 | without a room it throws 'Not connected to room' and changes nothing; if the library rejects the switch, that rejection is thrown and nothing changes; otherwise it returns the negated microphone flag and records it as both the room's flag and isRecording, touching nothing else |
| LiveKitClient.DisconnectedError | frontend/src/lib/livekit.ts:205 | an error is recorded exactly when a non-zero reason code was given, as 'Disconnected: ' and the code |
| LiveKitClient.OnDisconnected | frontend/src/lib/livekit.ts:199-207 | the Disconnected event clears the three flags, keeps the quality, the configuration and the room (now marked disconnected), and records 'Disconnected: ' and the code exactly for a non-zero reason |
| LiveKitClient.MapQuality | frontend/src/lib/livekit.ts:252-263 | 'excellent', 'good' and 'poor' map to themselves and every other value to unknown |
| LiveKitClient.MapQualityRoundTrip | frontend/src/lib/livekit.ts:252-263 | every grade the state can hold is read back unchanged from the library's name for it |
| LiveKitClient.OnQualityChanged | frontend/src/lib/livekit.ts:190-196 | only quality reports about the local participant change the state, and then only its quality; such a report succeeds and notifies the listener once, with the updated state; any other report notifies nobody |
| LiveKitClient.OnRoomStatus | frontend/src/lib/livekit.ts:63 | a status change inside the library is invisible in the client's state |
| LiveKitClient.GetRoomInfo | frontend/src/lib/livekit.ts:300-307 | room info is null exactly without a room, and otherwise gives the room's name and participant count |
| LiveKitClient.RoomInfoAfterDisconnect | frontend/src/lib/livekit.ts:122-135 | after disconnect room info is null |
| LiveKitClient.RoomInfoAfterJoin | frontend/src/lib/livekit.ts:62-117 | after a successful join room info gives the joined room's name and participant count |
| LiveKitClient.ApplyKeepsFlagsApart | frontend/src/lib/livekit.ts:62-207 | every operation and event ends with the two flags apart; of the states it reports, only connect's first can show both, and only when the state already said connected |
| LiveKitClient.RunKeepsFlagsApart | frontend/src/lib/livekit.ts:62-207 | after any sequence of calls and events, connected and connecting are never both true at rest |
| LiveKitClient.ConnectOverStaleSession | frontend/src/lib/livekit.ts:63-69 | connecting over a room that is not connected while the state says connected reports both flags at once |
| LiveKitClient.BothFlagsReachable | frontend/src/lib/livekit.ts:63-69 | connect, a library reconnect, then connect again makes the listener see both flags |
| LiveKitClient.MicrophoneFailureBlocksReconnect | frontend/src/lib/livekit.ts:96-116 | if the microphone fails after the join, the state is not connected yet every later connect returns at once without a request |
| VoiceWidget.Mount | frontend/src/components/VoiceWidget.tsx:19-31 | the widget starts without client, capability or permission, with the initial connection state and empty transcript |
| VoiceWidget.Observe | frontend/src/components/VoiceWidget.tsx:78-85 | the widget takes the last state reported, passes every state on to the host callback in order, holds the microphone flag read at the last notice that said connected (unchanged if none did), and changes nothing else |
| VoiceWidget.HandleConnect | frontend/src/components/VoiceWidget.tsx:92-100 | without a client nothing happens; otherwise the client connects, its request is logged, every state it reports is passed on, a thrown error is passed to onError, a successful connect leaves the microphone flag on, in general the flag is the one carried by the last connected state reported (unchanged when none was), connecting an already connected client changes nothing, and configuration, transcript, permission and capability are kept |
| VoiceWidget.HandleDisconnect | frontend/src/components/VoiceWidget.tsx:102-112 | without a client nothing happens; otherwise the client is reset, the initial state is shown and passed on, the microphone flag is off, the transcript is empty, and nothing else changes |
| VoiceWidget.DisconnectAllowsReconnect | frontend/src/components/VoiceWidget.tsx:92-112 | after a disconnect the panel offers the enabled connect button, and pressing it sends a token request for the configured room |
| VoiceWidget.HandleToggle | frontend/src/components/VoiceWidget.tsx:114-123 | without a client nothing happens; with no room, or when the library rejects the switch, only the error is reported; otherwise the client's room and isRecording take the negated flag, the widget shows it and passes the state on, and nothing else changes |
| VoiceWidget.Initialize | frontend/src/components/VoiceWidget.tsx:39-65 | without WebRTC the error is reported and no client is created; otherwise permission is recorded and a new client for the configuration is made, changing nothing else unless auto-connect and permission both hold, in which case that new client connects, exactly one token request goes out, the transcript is kept and a failed connect is reported once |
| VoiceWidget.HandlePermissionRequest | frontend/src/components/VoiceWidget.tsx:125-132 | the permission is recorded, and a connect happens only when permission and auto-connect both hold |
| VoiceWidget.UnsupportedWidgetIsInert | frontend/src/components/VoiceWidget.tsx:44-48 | without WebRTC the connect, disconnect and toggle handlers are no-ops and nothing is ever requested |
| VoiceWidget.Status | frontend/src/components/VoiceWidget.tsx:151-156 | the status line is connecting if connecting, else connected if connected, else error if a non-empty error exists, else not connected |
| VoiceWidget.Icon | frontend/src/components/VoiceWidget.tsx:135-149 | the status icon always belongs to the status line, so it follows the same priority |
| VoiceWidget.IconForInjective | frontend/src/components/VoiceWidget.tsx:135-156 | different status lines never share an icon |
| VoiceWidget.QualityIndicator | frontend/src/components/VoiceWidget.tsx:158-169 | the crossed-out indicator appears exactly for unknown quality |
| VoiceWidget.QualityIndicatorDistinct | frontend/src/components/VoiceWidget.tsx:158-169 | excellent, good and poor get pairwise distinct indicators |
| VoiceWidget.PanelFor | frontend/src/components/VoiceWidget.tsx:207-359 | the mic button is enabled, the quality shown (the indicator for the state's quality) and the disconnect button offered exactly when connected; the mic button shows active exactly when the microphone flag is on; the connect button is disabled exactly while connecting; the error banner appears exactly for a non-empty error and shows that error's text |
| VoiceWidget.ConnectOfferedWhenIdle | frontend/src/components/VoiceWidget.tsx:243-262 | the enabled connect button is offered exactly when the status line reads error or not connected, and the disabled one exactly while connecting from a disconnected state |
| VoiceWidget.BothFlagsPanel | frontend/src/components/VoiceWidget.tsx:135-156 | with both flags raised the panel reads connecting with a spinner but offers the disconnect button |
| VoiceWidget.View | frontend/src/components/VoiceWidget.tsx:171-207 | the capability notice shows exactly without WebRTC, the permission prompt exactly with WebRTC but no permission, and otherwise the panel |
| VoiceWidget.MicrophoneFailureStrandsPanel | frontend/src/components/VoiceWidget.tsx:243-262 | after a microphone failure the panel offers an enabled connect button whose press sends nothing |
| IframeWidget.Patch | frontend/src/components/IframeWidget.tsx:39 | keys present in the patch are replaced and all other keys are kept |
| IframeWidget.PatchEmpty | frontend/src/components/IframeWidget.tsx:39 | an empty patch keeps the configuration |
| IframeWidget.PatchIdempotent | frontend/src/components/IframeWidget.tsx:39 | applying the same patch twice equals applying it once |
| IframeWidget.InitialConfig | frontend/src/components/IframeWidget.tsx:10-18 | each property is the given one when given, else '/api/token', 'voice-agent-room', `user-<now>`, auto-connect off, transcription on, light theme |
| IframeWidget.HandleMessage | frontend/src/components/IframeWidget.tsx:22-52 | messages from origins outside the allow-list, unreadable payloads and unknown types leave the configuration alone; updateConfig merges, connect sets auto-connect, disconnect clears it |
| IframeWidget.ConnectRequestsIdempotent | frontend/src/components/IframeWidget.tsx:41-47 | a connect or disconnect request applied twice equals applying it once |
| IframeWidget.DisconnectOverridesConnect | frontend/src/components/IframeWidget.tsx:41-47 | a disconnect after a connect leaves the same configuration as the disconnect alone |
| IframeWidget.ThemeUpdateTouchesOnlyTheme | frontend/src/components/IframeWidget.tsx:38-39 | an updateConfig carrying only a theme changes the theme and nothing else |
| IframeWidget.TypeOfDistinguishesKinds | frontend/src/components/IframeWidget.tsx:57-97 | the outbound type field tells the message kinds apart |
| IframeWidget.ErrorToHost | frontend/src/components/IframeWidget.tsx:90-97 | an error goes to the host with type 'error' and the error's own message and stack |
| IframeWidget.ErrorReportRoundTrip | frontend/src/components/IframeWidget.tsx:90-97 | a host reading an error report gets back exactly the error's message and stack, and finds error data only in type 'error' messages |
| IframeWidget.HostSeesEveryState | frontend/src/components/IframeWidget.tsx:68-74 | whatever states the widget observes, the host receives one connectionStateChange per state, in order, after those already posted, each carrying that state verbatim |
| IframeWidget.HostSeesEveryConnectState | frontend/src/components/IframeWidget.tsx:68-74 | in particular a connect posts exactly one connectionStateChange per state the client reported, each carrying that state |
| IframeWidget.Reconfigure | frontend/src/components/VoiceWidget.tsx:38-75 | a new configuration first resets the old session (the initial state is passed on) and keeps the request history. With WebRTC it leaves a fresh client for the new configuration, connected and with one new token request exactly when auto-connect and permission hold; otherwise idle, showing the initial state with the microphone flag left as it was. Without WebRTC the old client stays, reset, and the unsupported-browser error is reported again. The capability flag is the new check's result, permission is recorded whenever WebRTC is present, the transcript is kept, and an error is reported only by a failed auto-connect |
| IframeWidget.Cleanup | frontend/src/components/VoiceWidget.tsx:70-73 | the effect's cleanup leaves the old client reset to a new one for its configuration and shows and passes on the initial state, keeping everything else, including the microphone flag; without a client it does nothing |
| IframeWidget.OnHostMessage | frontend/src/components/IframeWidget.tsx:22-52 | a message from an untrusted origin, an unreadable payload or an unknown type leaves the whole widget, live session included, unchanged; an accepted message installs the new configuration and re-runs the widget's initialisation with it |
| IframeWidget.ThemeChangeEndsCall | frontend/src/components/IframeWidget.tsx:36-39 | a trusted theme-only update without auto-connect ends a live call, leaving a fresh roomless client for the patched configuration |
| IframeWidget.HostConnectStartsSession | frontend/src/components/IframeWidget.tsx:41-43 | a trusted connect message, with WebRTC and permission, sends exactly one token request for the configured room without a reload |
| IframeWidget.HostDisconnectSendsNothing | frontend/src/components/IframeWidget.tsx:45-47 | a trusted disconnect message turns auto-connect off and sends no token request |
| Standalone.FromQuery | frontend/src/widget.tsx:8-14 | room and participant fall back when absent or empty, the two flags hold exactly for the string "true", and the theme passes through unchecked, defaulting to light |
| Standalone.StandaloneStart | frontend/src/widget.tsx:8-18 | standalone, the endpoint is '/api/token', transcription is on only for "true" (the embedded default never applies) and a participant name is always set |
| TokenApi.ClaimsFor | api/token.py:87-104 | the claims run from now to now plus the lifetime, name the key as issuer, the participant as subject, 'livekit' as audience and the room, and grant all four permissions |
| TokenApi.GenerateToken | api/token.py:67-109 | a token carries those claims with a one-hour lifetime, signed HS256 with the secret |
| TokenApi.ValidityWindow | api/token.py:87-96 | claims issued at now with lifetime ttl are accepted by a JWT verifier exactly from now until just before now plus ttl |
| TokenApi.GeneratedTokenLastsAnHour | api/token.py:67-109 | a generated token is accepted for exactly the hour after it is issued |
| TokenApi.ServerUrl | api/token.py:179 | the URL is the variable's value whenever it is set, even empty, else the placeholder |
| TokenApi.Get | api/token.py:160-161 | field lookup yields the field or the default on an object and fails with Python's AttributeError text on anything else |
| TokenApi.Mint | api/token.py:159-169 | a token is issued exactly for object bodies, and it is the one-hour HS256 token `generate_livekit_token` makes with the key and secret for the requested room and participant or 'default-room' and `user-<now>`; other bodies fail with Python's AttributeError text |
| TokenApi.RequestData | api/token.py:152-157 | an absent or empty body reads as {}, a string body reads as its decoded value or fails with the decode error, and any other value is used as it is; only an undecodable string fails |
| TokenApi.Handler | api/token.py:112-191 | OPTIONS gets 200 with CORS headers, other non-POST methods get 405 'Method not allowed', missing credentials get 500 'Missing LiveKit credentials'. A credentialed POST gets 200 exactly when its body reads as an object, with the token minted for that body and the server URL; an undecodable body gets 500 with the decode error, and a non-object body gets 500 with Python's AttributeError text |
| TokenApi.DoOptions | api/token.py:59-65 | the preflight answer is 200 with no body, allowing POST and OPTIONS |
| TokenApi.DoPost | api/token.py:9-57 | missing credentials give a 500 error page. With credentials, the answer is 200 exactly when the body is empty, undecodable or an object, carrying the token minted for that body (or for {}) and the server URL; a decoded non-object gives a 500 page with Python's AttributeError text |
| TokenApi.CredentialsCheckedBeforeBody | api/token.py:139-155 | without credentials the serverless answer is the same for every body |
| TokenApi.EmptyRequestUsesDefaults | api/token.py:153-161 | an empty POST yields a token for 'default-room' and `user-<now>` valid from now for 3600 seconds |
| TokenApi.MalformedBodyDivergence | api/token.py:24-27 | a body that does not decode gets a default token from the stand-alone handler but a 500 'Error generating token: …' from the serverless one |
| TokenApi.EntryPointsAgreeOnValidBodies | api/token.py:30-39 | on a body that decodes, both entry points answer with the same status and, on success, the same token and URL |
| TokenApi.OptionsAnswersAgree | api/token.py:116-125 | both entry points answer a preflight identically |

## Left out

- Media transport: track subscription, audio-element attach and detach, participant handlers
  and event registration (livekit.ts:165-247) are library and DOM work. The room is reduced to
  a status, a microphone flag, its credentials and what room-info reports.
- The real fetch, getUserMedia and the WebRTC capability test (livekit.ts:39-45, 313-329) are
  not modelled. Their results are inputs: `FetchOutcome`, the permission boolean and the
  capability boolean. Console logging is dropped.
- Async interleaving is not modelled. Each operation runs atomically, so a token fetch that
  resolves after a disconnect, concurrent connects, and room events arriving in the middle of a
  connect are all outside the model. React effect timing, StrictMode double effects and
  re-render semantics are out too. The effect re-run on a new configuration object is modelled
  as one step (`IframeWidget.Reconfigure`).
- A room-left event is assumed to come from the current room. The library sets that room's
  status to disconnected before it reports the event.
- `disconnect` is assumed never to reject. The library's own disconnect is taken as
  successful. The Disconnected event it raises while leaving changes the stored state only
  until the reset that follows, but the listener, and through it the host page, also sees
  that intermediate state; the model omits it, so `VoiceWidget.HandleDisconnect` forwards one
  state fewer than the host receives.
- The embedded widget also posts 'transcription' and 'message' messages (IframeWidget.tsx:76-88)
  when the voice widget calls `onTranscription` or `onMessage`. The voice widget never calls
  either, so those kinds are never sent and are not modelled.
- `setOnError` stores a callback that the client never calls. The widget's own `onError`
  reports are modelled as the `reported` list.
- JSX rendering, CSS classes, the expanded panel (transcript box, message list, room-info line)
  and the widget-expanded toggle are out. Only the compact panel's derivations are modelled.
  The status strings are modelled by the `StatusText` datatype rather than as the literal
  interface strings.
- The message list is never appended to anywhere in the source, so it is not modelled.
  `getConnectionState`'s defensive copy is an identity in a value model.
- The `window.postMessage` transport and the `widgetReady` broadcast at mount
  (IframeWidget.tsx:57-60) are I/O. Only the message shapes are modelled.
- IframeWidget.HandleMessage: host-supplied `data` is assumed to carry values of the declared
  property types. A key with an undefined value is modelled only for optional properties.
- Standalone.FromQuery: the query string is taken as a map from each parameter to its first
  value. Percent-decoding by the URL parser is not modelled.
- HS256 signing (`jwt.encode`) is not modelled. A token is its claims, the secret and the
  algorithm name.
- Environment reads are a map parameter. Socket writes, the HTML body and the headers of the
  stand-alone handler's error page, Content-Length handling and UTF-8 decoding are out. JSON
  decoding is external: its result is an input next to the body text.
- TokenApi.Mint: the handler reads the clock twice, once for the default participant name and
  once for the claim times. The model takes a single reading `now` for both. Values of
  requested fields other than strings and objects are kept opaque.
- The stand-alone handler's response to methods other than POST and OPTIONS comes from the
  HTTP server library and is not modelled.
- Clock readings are non-negative whole numbers (milliseconds in the browser, seconds on the
  server).
- main.py, chat_generator.py, rag_livekit_rules_generator.py, App.tsx and vite.config.ts are
  not part of this model. They are LLM and console wrappers or static configuration.

=== FILE: basics.dfy ===
/**
  The small datatypes every module shares: a possibly absent value, and the
  two shapes of "returned or threw".
 */
module Basics {

  /** A value that may be absent: `undefined`, `null`, or a key the object lacks. */
  datatype Option<T> = None | Some(value: T) {

    /** The value when present, `fallback` otherwise. */
    function ValueOr(fallback: T): T {
      if Some? then value else fallback
    }
  }

  /** A call that returned a `T` or threw an `E`. */
  datatype Result<T, E> = Success(value: T) | Failure(error: E)

  /** A call that returned nothing or threw an `E`. */
  datatype Outcome<E> = Pass | Fail(error: E)
}

=== FILE: decimal.dfy ===
/**
  Decimal rendering of natural numbers, as JavaScript's template literals and
  Python's f-strings print an integer, and the `user-<n>` participant names
  built from a clock reading in several places of the system.
 */
module Decimal {

  predicate IsDigit(c: char) {
    '0' <= c <= '9'
  }

  predicate AllDigits(s: string) {
    forall i :: 0 <= i < |s| ==> IsDigit(s[i])
  }

  function DigitChar(d: nat): (c: char)
    requires d < 10
    ensures IsDigit(c)
  {
    "0123456789"[d]
  }

  function DigitValue(c: char): (d: nat)
    requires IsDigit(c)
    ensures d < 10
  {
    c as int - '0' as int
  }

  lemma DigitRoundTrip(d: nat)
    requires d < 10
    ensures DigitValue(DigitChar(d)) == d
  {
  }

  /** The shortest decimal numeral of `n`: only digits, never empty, no leading zero. */
  function ToDecimal(n: nat): (s: string)
    ensures |s| > 0
    ensures AllDigits(s)
    ensures s[0] == '0' ==> n == 0 && |s| == 1
    decreases n
  {
    if n < 10 then [DigitChar(n)] else ToDecimal(n / 10) + [DigitChar(n % 10)]
  }

  /** The value a string of digits denotes; the inverse of ToDecimal. */
  function FromDecimal(s: string): nat
    requires AllDigits(s)
    decreases |s|
  {
    if |s| == 0 then 0 else FromDecimal(s[..|s| - 1]) * 10 + DigitValue(s[|s| - 1])
  }

  lemma {:induction false} DecimalRoundTrip(n: nat)
    ensures FromDecimal(ToDecimal(n)) == n
    decreases n
  {
    if n < 10 {
      var s := ToDecimal(n);
      assert s[..|s| - 1] == [];
      DigitRoundTrip(n);
    } else {
      var s := ToDecimal(n);
      var prefix := ToDecimal(n / 10);
      assert s == prefix + [DigitChar(n % 10)];
      assert s[..|s| - 1] == prefix;
      DecimalRoundTrip(n / 10);
      DigitRoundTrip(n % 10);
    }
  }

  /** Distinct numbers render as distinct numerals. */
  lemma DecimalInjective(a: nat, b: nat)
    requires ToDecimal(a) == ToDecimal(b)
    ensures a == b
  {
    DecimalRoundTrip(a);
    DecimalRoundTrip(b);
  }

  /** The generated participant name `user-<n>`. */
  function UserName(n: nat): (s: string)
    ensures |s| > 5 && s[..5] == "user-"
    ensures AllDigits(s[5..])
  {
    "user-" + ToDecimal(n)
  }

  /** A generated name determines the clock reading it was made from. */
  lemma UserNameInjective(a: nat, b: nat)
    requires UserName(a) == UserName(b)
    ensures a == b
  {
    assert UserName(a)[5..] == ToDecimal(a);
    assert UserName(b)[5..] == ToDecimal(b);
    DecimalInjective(a, b);
  }
}

=== FILE: iframe_widget.dfy ===
/**
  The host bridge: the embedded widget's configuration state, how messages from
  the hosting page change it, the messages the widget sends back, and how a
  configuration change re-initialises the voice widget it renders.
 */
module IframeWidget {
  import opened Basics
  import opened Types
  import Decimal
  import LiveKitClient
  import VoiceWidget

  /**
    A `Partial<VoiceWidgetConfig>`: a field is `Some` exactly when the object
    has that key. For optional properties `Some(None)` is a key whose value is
    undefined, which the spread copies like any other value.
   */
  datatype ConfigPatch = ConfigPatch(
    tokenEndpoint: Option<string>,
    roomName: Option<string>,
    participantName: Option<Option<string>>,
    serverUrl: Option<Option<string>>,
    autoConnect: Option<Option<bool>>,
    enableTranscription: Option<Option<bool>>,
    theme: Option<Option<string>>)

  const EmptyPatch := ConfigPatch(None, None, None, None, None, None, None)

  /** `{...c, ...p}`: keys present in `p` replace, all other keys are kept. */
  function Patch(c: WidgetConfig, p: ConfigPatch): (r: WidgetConfig)
    ensures r.tokenEndpoint == (if p.tokenEndpoint.Some? then p.tokenEndpoint.value else c.tokenEndpoint)
    ensures r.roomName == (if p.roomName.Some? then p.roomName.value else c.roomName)
    ensures r.participantName == (if p.participantName.Some? then p.participantName.value else c.participantName)
    ensures r.serverUrl == (if p.serverUrl.Some? then p.serverUrl.value else c.serverUrl)
    ensures r.autoConnect == (if p.autoConnect.Some? then p.autoConnect.value else c.autoConnect)
    ensures r.enableTranscription == (if p.enableTranscription.Some? then p.enableTranscription.value else c.enableTranscription)
    ensures r.theme == (if p.theme.Some? then p.theme.value else c.theme)
  {
    WidgetConfig(
      p.tokenEndpoint.ValueOr(c.tokenEndpoint),
      p.roomName.ValueOr(c.roomName),
      p.participantName.ValueOr(c.participantName),
      p.serverUrl.ValueOr(c.serverUrl),
      p.autoConnect.ValueOr(c.autoConnect),
      p.enableTranscription.ValueOr(c.enableTranscription),
      p.theme.ValueOr(c.theme))
  }

  lemma PatchEmpty(c: WidgetConfig)
    ensures Patch(c, EmptyPatch) == c
  {
  }

  lemma PatchIdempotent(c: WidgetConfig, p: ConfigPatch)
    ensures Patch(Patch(c, p), p) == Patch(c, p)
  {
  }

  const DefaultEndpoint := "/api/token"
  const DefaultRoom := "voice-agent-room"
  const DefaultTheme := "light"

  /**
    The configuration the embedded widget starts with: the defaults
    (participant `user-<now>`, auto-connect off, transcription on, light theme)
    overridden key by key by the configuration it was given.
   */
  function InitialConfig(props: ConfigPatch, now: nat): (r: WidgetConfig)
    ensures r.tokenEndpoint == props.tokenEndpoint.ValueOr("/api/token")
    ensures r.roomName == props.roomName.ValueOr("voice-agent-room")
    ensures r.participantName == props.participantName.ValueOr(Some(Decimal.UserName(now)))
    ensures r.serverUrl == props.serverUrl.ValueOr(None)
    ensures r.autoConnect == props.autoConnect.ValueOr(Some(false))
    ensures r.enableTranscription == props.enableTranscription.ValueOr(Some(true))
    ensures r.theme == props.theme.ValueOr(Some("light"))
  {
    var defaults := WidgetConfig(DefaultEndpoint, DefaultRoom, Some(Decimal.UserName(now)), None,
                                 Some(false), Some(true), Some(DefaultTheme));
    Patch(defaults, props)
  }

  /** The `{type, data}` a host posts; `data` is read only by updateConfig. */
  datatype HostMessage = HostMessage(kind: string, data: ConfigPatch)

  /** A message event: its origin and its payload, `None` when the payload has no `type`/`data` to read. */
  datatype MessageEvent = MessageEvent(origin: string, payload: Option<HostMessage>)

  /** The origins messages are accepted from: the two local development origins and the widget's own. */
  function AllowedOrigins(selfOrigin: string): seq<string> {
    ["http://localhost:3000", "https://localhost:3000", selfOrigin]
  }

  /**
    The message handler. `None` when it does not touch the configuration state
    (untrusted origin, unreadable payload, unknown type); otherwise the new
    configuration object it sets.
   */
  function HandleMessage(c: WidgetConfig, selfOrigin: string, ev: MessageEvent): (r: Option<WidgetConfig>)
    ensures ev.origin !in AllowedOrigins(selfOrigin) ==> r.None?
    ensures ev.payload.None? ==> r.None?
    ensures r.Some? <==>
      ev.origin in AllowedOrigins(selfOrigin) && ev.payload.Some?
      && ev.payload.value.kind in {"updateConfig", "connect", "disconnect"}
    ensures r.Some? && ev.payload.value.kind == "updateConfig" ==> r.value == Patch(c, ev.payload.value.data)
    ensures r.Some? && ev.payload.value.kind == "connect" ==> r.value == c.(autoConnect := Some(true))
    ensures r.Some? && ev.payload.value.kind == "disconnect" ==> r.value == c.(autoConnect := Some(false))
  {
    if ev.origin !in AllowedOrigins(selfOrigin) then None
    else match ev.payload
      case None => None
      case Some(m) =>
        if m.kind == "updateConfig" then Some(Patch(c, m.data))
        else if m.kind == "connect" then Some(c.(autoConnect := Some(true)))
        else if m.kind == "disconnect" then Some(c.(autoConnect := Some(false)))
        else None
  }

  /** The configuration after a message. */
  function ConfigAfter(c: WidgetConfig, selfOrigin: string, ev: MessageEvent): WidgetConfig {
    HandleMessage(c, selfOrigin, ev).ValueOr(c)
  }

  /** A connect or disconnect request applied twice has the effect of applying it once. */
  lemma ConnectRequestsIdempotent(c: WidgetConfig, selfOrigin: string, ev: MessageEvent)
    requires ev.payload.Some? && ev.payload.value.kind in {"connect", "disconnect"}
    ensures ConfigAfter(ConfigAfter(c, selfOrigin, ev), selfOrigin, ev) == ConfigAfter(c, selfOrigin, ev)
  {
  }

  /** Of a connect and a following disconnect from trusted origins, only the disconnect shows. */
  lemma DisconnectOverridesConnect(c: WidgetConfig, selfOrigin: string, origin: string, data1: ConfigPatch, data2: ConfigPatch)
    requires origin in AllowedOrigins(selfOrigin)
    ensures var connect := MessageEvent(origin, Some(HostMessage("connect", data1)));
      var disconnect := MessageEvent(origin, Some(HostMessage("disconnect", data2)));
      ConfigAfter(ConfigAfter(c, selfOrigin, connect), selfOrigin, disconnect) == ConfigAfter(c, selfOrigin, disconnect)
  {
  }

  /** An updateConfig carrying only a theme changes the theme and nothing else. */
  lemma ThemeUpdateTouchesOnlyTheme(c: WidgetConfig, selfOrigin: string, origin: string, theme: string)
    requires origin in AllowedOrigins(selfOrigin)
    ensures ConfigAfter(c, selfOrigin, MessageEvent(origin, Some(HostMessage("updateConfig", EmptyPatch.(theme := Some(Some(theme))))))) ==
      c.(theme := Some(theme))
  {
  }

  // ---------------------------------------------------------------------------
  // Messages to the host page.

  /** A JavaScript error as the widget sees it: its message and stack, either of which may be undefined. */
  datatype JsError = JsError(message: Option<string>, stack: Option<string>)

  datatype Outbound =
    | WidgetReady(timestamp: nat)
    | ConnectionStateChange(state: ConnectionState)
    | ErrorReport(message: Option<string>, stack: Option<string>)

  /** The `type` field of an outbound message. */
  function TypeOf(m: Outbound): string {
    match m
    case WidgetReady(_) => "widgetReady"
    case ConnectionStateChange(_) => "connectionStateChange"
    case ErrorReport(_, _) => "error"
  }

  /** A host can tell the kinds of message apart by their type field alone. */
  lemma TypeOfDistinguishesKinds(m1: Outbound, m2: Outbound)
    requires TypeOf(m1) == TypeOf(m2)
    ensures m1.WidgetReady? <==> m2.WidgetReady?
    ensures m1.ConnectionStateChange? <==> m2.ConnectionStateChange?
    ensures m1.ErrorReport? <==> m2.ErrorReport?
  {
  }

  /** `handleError`: forward an error to the host as type 'error' with its message and stack. */
  function ErrorToHost(e: JsError): (m: Outbound)
    ensures TypeOf(m) == "error"
    ensures m.ErrorReport? && m.message == e.message && m.stack == e.stack
  {
    ErrorReport(e.message, e.stack)
  }

  /** How a host reads an error report back: the message and stack of a type 'error' message, nothing otherwise. */
  function ReadError(m: Outbound): Option<JsError> {
    match m
    case ErrorReport(message, stack) => Some(JsError(message, stack))
    case _ => None
  }

  /** The host recovers every forwarded error exactly, and finds errors only in type 'error' messages. */
  lemma ErrorReportRoundTrip(e: JsError, m: Outbound)
    ensures ReadError(ErrorToHost(e)) == Some(e)
    ensures ReadError(m).Some? <==> TypeOf(m) == "error"
  {
  }

  /** `handleConnectionStateChange`: a state the widget sees is forwarded verbatim. */
  function StateToHost(s: ConnectionState): Outbound {
    ConnectionStateChange(s)
  }

  /** The messages posted for a list of forwarded states, one each, in order. */
  function ToHost(states: seq<ConnectionState>): seq<Outbound> {
    seq(|states|, i requires 0 <= i < |states| => StateToHost(states[i]))
  }

  lemma ToHostAppend(a: seq<ConnectionState>, b: seq<ConnectionState>)
    ensures ToHost(a + b) == ToHost(a) + ToHost(b)
  {
  }

  /**
    Whatever the widget observes, the listener posts one connectionStateChange
    message per reported state, in order, after those posted before, and the
    messages carry exactly those states.
   */
  lemma {:induction false} HostSeesEveryState(w: VoiceWidget.Widget, notices: seq<LiveKitClient.Notice>)
    ensures var posted := ToHost(VoiceWidget.Observe(w, notices).forwarded);
      && posted == ToHost(w.forwarded) + ToHost(VoiceWidget.States(notices))
      && |posted| == |w.forwarded| + |notices|
      && forall i :: 0 <= i < |notices| ==>
           TypeOf(posted[|w.forwarded| + i]) == "connectionStateChange" && posted[|w.forwarded| + i].state == notices[i].state
  {
    AppendedStatesReachHost(w.forwarded, VoiceWidget.States(notices));
  }

  /** In particular, a connect from the embedded widget posts one message per state the client reported. */
  lemma {:induction false} HostSeesEveryConnectState(w: VoiceWidget.Widget, now: nat,
                                                     fetch: LiveKitClient.FetchOutcome, join: LiveKitClient.JoinOutcome)
    requires w.client.Some?
    ensures var s := LiveKitClient.Connect(w.client.value, now, fetch, join);
      var posted := ToHost(VoiceWidget.HandleConnect(w, now, fetch, join).forwarded);
      && |posted| == |w.forwarded| + |s.notices|
      && forall i :: 0 <= i < |s.notices| ==> posted[|w.forwarded| + i] == ConnectionStateChange(s.notices[i].state)
  {
    var s := LiveKitClient.Connect(w.client.value, now, fetch, join);
    HostSeesEveryState(w, s.notices);
  }

  /** The messages for states appended to a stream are those already posted, then one per new state, in order. */
  lemma AppendedStatesReachHost(before: seq<ConnectionState>, added: seq<ConnectionState>)
    ensures ToHost(before + added) == ToHost(before) + ToHost(added)
    ensures |ToHost(before + added)| == |before| + |added|
    ensures forall i :: 0 <= i < |added| ==> ToHost(before + added)[|before| + i] == ConnectionStateChange(added[i])
  {
    ToHostAppend(before, added);
  }

  // ---------------------------------------------------------------------------
  // The rendered voice widget reacts to every new configuration object.

  /**
    A new configuration object re-runs the voice widget's initialisation: the
    old client is disconnected (its listener still updates the widget), then
    initialisation runs with the new configuration.
   */
  function Reconfigure(w: VoiceWidget.Widget, config: WidgetConfig, webRtc: bool, permission: bool,
                       now: nat, fetch: LiveKitClient.FetchOutcome, join: LiveKitClient.JoinOutcome): (r: VoiceWidget.Widget)
    ensures r.config == config && r.webRtcAvailable == webRtc && r.transcript == w.transcript
    ensures webRtc ==> r.hasPermission == permission
    ensures |r.requests| >= |w.requests| && r.requests[..|w.requests|] == w.requests
    ensures webRtc ==> r.client.Some? && r.client.value.config == config
    ensures webRtc && IsSet(config.autoConnect) && permission ==>
      && r.client == Some(LiveKitClient.Connect(LiveKitClient.New(config), now, fetch, join).client)
      && r.requests == w.requests + [TokenRequest(config.tokenEndpoint, config.roomName,
                                                  LiveKitClient.ParticipantFor(config, now))]
    ensures webRtc && !(IsSet(config.autoConnect) && permission) ==>
      r.client == Some(LiveKitClient.New(config)) && r.requests == w.requests
    ensures !webRtc ==>
      r.client == (if w.client.Some? then Some(LiveKitClient.New(w.client.value.config)) else None)
    ensures !webRtc ==> r.reported == w.reported + [LiveKitClient.ErrorObject(VoiceWidget.UnsupportedMessage)]
    ensures webRtc && !(IsSet(config.autoConnect) && permission) ==> r.reported == w.reported
    ensures webRtc && IsSet(config.autoConnect) && permission ==>
      var s := LiveKitClient.Connect(LiveKitClient.New(config), now, fetch, join);
      r.reported == w.reported + (if s.outcome.Fail? then [s.outcome.error] else [])
    ensures w.client.Some? ==>
      |r.forwarded| > |w.forwarded| && r.forwarded[..|w.forwarded| + 1] == w.forwarded + [LiveKitClient.Initial]
    ensures w.client.Some? && !(webRtc && IsSet(config.autoConnect) && permission) ==>
      r.conn == LiveKitClient.Initial && r.micEnabled == w.micEnabled
  {
    LogsAfterReconfigure(w, config, webRtc, permission, now, fetch, join);
    ClientAfterReconfigure(w, config, webRtc, permission, now, fetch, join);
    VoiceWidget.Initialize(Cleanup(w).(config := config), webRtc, permission, now, fetch, join)
  }

  /** What re-initialisation does to the configuration, the flags and the logs of requests and errors. */
  lemma LogsAfterReconfigure(w: VoiceWidget.Widget, config: WidgetConfig, webRtc: bool, permission: bool,
                             now: nat, fetch: LiveKitClient.FetchOutcome, join: LiveKitClient.JoinOutcome)
    ensures var r := VoiceWidget.Initialize(Cleanup(w).(config := config), webRtc, permission, now, fetch, join);
      var s := LiveKitClient.Connect(LiveKitClient.New(config), now, fetch, join);
      var auto := IsSet(config.autoConnect) && permission;
      && r.config == config && r.webRtcAvailable == webRtc && r.transcript == w.transcript
      && (webRtc ==> r.hasPermission == permission)
      && |r.requests| >= |w.requests| && r.requests[..|w.requests|] == w.requests
      && (webRtc && auto ==>
            r.requests == w.requests + [TokenRequest(config.tokenEndpoint, config.roomName,
                                                     LiveKitClient.ParticipantFor(config, now))])
      && (!(webRtc && auto) ==> r.requests == w.requests)
      && (!webRtc ==> r.reported == w.reported + [LiveKitClient.ErrorObject(VoiceWidget.UnsupportedMessage)])
      && (webRtc && !auto ==> r.reported == w.reported)
      && (webRtc && auto ==> r.reported == w.reported + (if s.outcome.Fail? then [s.outcome.error] else []))
  {
  }

  /** What re-initialisation does to the client and to the states the widget has seen. */
  lemma ClientAfterReconfigure(w: VoiceWidget.Widget, config: WidgetConfig, webRtc: bool, permission: bool,
                               now: nat, fetch: LiveKitClient.FetchOutcome, join: LiveKitClient.JoinOutcome)
    ensures var r := VoiceWidget.Initialize(Cleanup(w).(config := config), webRtc, permission, now, fetch, join);
      var auto := IsSet(config.autoConnect) && permission;
      && (webRtc ==> r.client.Some? && r.client.value.config == config)
      && (webRtc && auto ==> r.client == Some(LiveKitClient.Connect(LiveKitClient.New(config), now, fetch, join).client))
      && (webRtc && !auto ==> r.client == Some(LiveKitClient.New(config)))
      && (!webRtc ==> r.client == (if w.client.Some? then Some(LiveKitClient.New(w.client.value.config)) else None))
      && (w.client.Some? ==>
            |r.forwarded| > |w.forwarded| && r.forwarded[..|w.forwarded| + 1] == w.forwarded + [LiveKitClient.Initial])
      && (w.client.Some? && !(webRtc && auto) ==> r.conn == LiveKitClient.Initial && r.micEnabled == w.micEnabled)
  {
  }

  /** The effect's cleanup: the old client, if any, is disconnected while its listener still updates the widget. */
  function Cleanup(w: VoiceWidget.Widget): (w1: VoiceWidget.Widget)
    ensures w.client.None? ==> w1 == w
    ensures w.client.Some? ==>
      w1 == w.(client := Some(LiveKitClient.New(w.client.value.config)),
               conn := LiveKitClient.Initial,
               forwarded := w.forwarded + [LiveKitClient.Initial])
  {
    match w.client
    case Some(c) =>
      var s := LiveKitClient.Disconnect(c);
      VoiceWidget.Observe(w.(client := Some(s.client)), s.notices)
    case None => w
  }

  /** A host message reaching the embedded widget. */
  function OnHostMessage(w: VoiceWidget.Widget, selfOrigin: string, ev: MessageEvent, webRtc: bool, permission: bool,
                         now: nat, fetch: LiveKitClient.FetchOutcome, join: LiveKitClient.JoinOutcome): (r: VoiceWidget.Widget)
    ensures ev.origin !in AllowedOrigins(selfOrigin) ==> r == w
    ensures HandleMessage(w.config, selfOrigin, ev).None? ==> r == w
    ensures HandleMessage(w.config, selfOrigin, ev).Some? ==>
      r == Reconfigure(w, HandleMessage(w.config, selfOrigin, ev).value, webRtc, permission, now, fetch, join)
    ensures HandleMessage(w.config, selfOrigin, ev).Some? ==> r.config == HandleMessage(w.config, selfOrigin, ev).value
  {
    match HandleMessage(w.config, selfOrigin, ev)
    case None => w
    case Some(config) => Reconfigure(w, config, webRtc, permission, now, fetch, join)
  }

  /**
    A trusted connect message starts a session without a page reload: with
    WebRTC and permission, exactly one token request for the configured room
    follows, whatever the widget was doing before.
   */
  lemma HostConnectStartsSession(w: VoiceWidget.Widget, selfOrigin: string, origin: string, data: ConfigPatch,
                                 now: nat, fetch: LiveKitClient.FetchOutcome, join: LiveKitClient.JoinOutcome)
    requires origin in AllowedOrigins(selfOrigin)
    ensures var r := OnHostMessage(w, selfOrigin, MessageEvent(origin, Some(HostMessage("connect", data))), true, true, now, fetch, join);
      && IsSet(r.config.autoConnect)
      && r.requests == w.requests + [TokenRequest(w.config.tokenEndpoint, w.config.roomName,
                                                  LiveKitClient.ParticipantFor(w.config, now))]
  {
  }

  /**
    Every accepted host message creates a new configuration object, so even a
    theme change ends a live call: without auto-connect the widget is left
    with a fresh, roomless client for the patched configuration.
   */
  lemma ThemeChangeEndsCall(w: VoiceWidget.Widget, selfOrigin: string, origin: string, theme: string,
                            permission: bool, now: nat, fetch: LiveKitClient.FetchOutcome, join: LiveKitClient.JoinOutcome)
    requires origin in AllowedOrigins(selfOrigin) && !IsSet(w.config.autoConnect)
    ensures var patch := EmptyPatch.(theme := Some(Some(theme)));
      var r := OnHostMessage(w, selfOrigin, MessageEvent(origin, Some(HostMessage("updateConfig", patch))), true, permission, now, fetch, join);
      && r.client == Some(LiveKitClient.New(Patch(w.config, patch)))
      && r.client.value.room.None?
      && r.config.theme == Some(theme)
  {
  }

  /** A trusted disconnect message re-initialises the widget without connecting. */
  lemma HostDisconnectSendsNothing(w: VoiceWidget.Widget, selfOrigin: string, origin: string, data: ConfigPatch,
                                   webRtc: bool, permission: bool,
                                   now: nat, fetch: LiveKitClient.FetchOutcome, join: LiveKitClient.JoinOutcome)
    requires origin in AllowedOrigins(selfOrigin)
    ensures var r := OnHostMessage(w, selfOrigin, MessageEvent(origin, Some(HostMessage("disconnect", data))), webRtc, permission, now, fetch, join);
      && r.config.autoConnect == Some(false)
      && r.requests == w.requests
  {
  }
}

=== FILE: livekit_client.dfy ===
/**
  The connection facade around the media-room library: the client's connection
  state, the room it holds, and the operations connect, disconnect and
  toggle-microphone together with the room events the client reacts to.

  The room is abstract: only its status, its microphone flag and what
  room-info reports are kept. The token fetch and the room join are taken as
  outcomes supplied by the caller.
 */
module LiveKitClient {
  import opened Basics
  import opened Types
  import Decimal

  /** The media library's own room connection status. */
  datatype RoomStatus = RoomDisconnected | RoomConnecting | RoomConnected | RoomReconnecting

  /** A room object held by the client, with the credentials it was joined with. */
  datatype Room = Room(
    name: string,
    numParticipants: nat,
    status: RoomStatus,
    micEnabled: bool,
    credentials: TokenResponse)

  datatype Client = Client(config: WidgetConfig, room: Option<Room>, state: ConnectionState)

  /** A thrown JavaScript value: an Error with its message, or anything else. */
  datatype Thrown = ErrorObject(message: string) | NonErrorValue

  /** What the token fetch produced: an HTTP response (with its JSON body, if it parsed) or a network failure. */
  datatype FetchOutcome =
    | HttpResponse(status: int, body: Option<TokenResponse>)
    | NetworkFailure
  {
    /** The Fetch API's `response.ok`: the status is in the range 200-299. */
    predicate Ok() requires HttpResponse? {
      200 <= status < 300
    }
  }

  /**
    What joining the room produced: success, a failure of the join itself, or a
    join that succeeded followed by a failure to switch the microphone on.
   */
  datatype JoinOutcome =
    | Joined(name: string, participants: nat)
    | JoinFailed(thrown: Thrown)
    | MicrophoneFailed(name: string, participants: nat, thrown: Thrown)

  /** One call of the state-change listener: the state and the room's microphone flag at that moment. */
  datatype Notice = Notice(state: ConnectionState, micEnabled: bool)

  /** The result of connect: the new client, whether it threw, what the listener saw, and the token request sent. */
  datatype ConnectStep = ConnectStep(
    client: Client,
    outcome: Outcome<Thrown>,
    notices: seq<Notice>,
    request: Option<TokenRequest>)

  /** The result of an operation returning a `T` (or throwing), with what the listener saw. */
  datatype Step<T> = Step(client: Client, result: Result<T, Thrown>, notices: seq<Notice>)

  /**
    A `Partial<VoiceConnectionState>`: a field is `Some` exactly when the update
    object has that key. For `error`, `Some(None)` is a key whose value is null.
   */
  datatype StateUpdate = StateUpdate(
    isConnected: Option<bool>,
    isConnecting: Option<bool>,
    isRecording: Option<bool>,
    error: Option<Option<string>>,
    connectionQuality: Option<Quality>)

  const NoUpdate := StateUpdate(None, None, None, None, None)

  const TokenFailureMessage := "Failed to get authentication token"
  const NotConnectedMessage := "Not connected to room"
  const ConnectionFailedMessage := "Connection failed"

  /** The state of a fresh client. */
  const Initial := ConnectionState(false, false, false, None, Unknown)

  /** Both flags raised at once: what the connection state is meant never to show. */
  predicate BothFlags(s: ConnectionState) {
    s.isConnected && s.isConnecting
  }

  /** A new client holds no room and starts disconnected, idle, silent, error-free, quality unknown. */
  function New(config: WidgetConfig): (c: Client)
    ensures c.config == config && c.room.None?
    ensures !c.state.isConnected && !c.state.isConnecting && !c.state.isRecording
    ensures c.state.error.None? && c.state.connectionQuality == Unknown
  {
    Client(config, None, Initial)
  }

  /** Shallow merge `{...s, ...u}`: keys present in `u` win, every other field keeps its value. */
  function Merge(s: ConnectionState, u: StateUpdate): (r: ConnectionState)
    ensures r.isConnected == (if u.isConnected.Some? then u.isConnected.value else s.isConnected)
    ensures r.isConnecting == (if u.isConnecting.Some? then u.isConnecting.value else s.isConnecting)
    ensures r.isRecording == (if u.isRecording.Some? then u.isRecording.value else s.isRecording)
    ensures r.error == (if u.error.Some? then u.error.value else s.error)
    ensures r.connectionQuality == (if u.connectionQuality.Some? then u.connectionQuality.value else s.connectionQuality)
  {
    ConnectionState(
      u.isConnected.ValueOr(s.isConnected),
      u.isConnecting.ValueOr(s.isConnecting),
      u.isRecording.ValueOr(s.isRecording),
      u.error.ValueOr(s.error),
      u.connectionQuality.ValueOr(s.connectionQuality))
  }

  /** `{...u1, ...u2}`: the single update equivalent to applying `u1` and then `u2`. */
  function Then(u1: StateUpdate, u2: StateUpdate): StateUpdate {
    StateUpdate(
      if u2.isConnected.Some? then u2.isConnected else u1.isConnected,
      if u2.isConnecting.Some? then u2.isConnecting else u1.isConnecting,
      if u2.isRecording.Some? then u2.isRecording else u1.isRecording,
      if u2.error.Some? then u2.error else u1.error,
      if u2.connectionQuality.Some? then u2.connectionQuality else u1.connectionQuality)
  }

  lemma MergeNoUpdate(s: ConnectionState)
    ensures Merge(s, NoUpdate) == s
  {
  }

  lemma MergeThen(s: ConnectionState, u1: StateUpdate, u2: StateUpdate)
    ensures Merge(Merge(s, u1), u2) == Merge(s, Then(u1, u2))
  {
  }

  lemma MergeIdempotent(s: ConnectionState, u: StateUpdate)
    ensures Merge(Merge(s, u), u) == Merge(s, u)
  {
  }

  /** `isMicrophoneEnabled()`: the room's microphone flag, false without a room. */
  function MicrophoneEnabled(c: Client): (on: bool)
    ensures on <==> c.room.Some? && c.room.value.micEnabled
  {
    match c.room
    case Some(room) => room.micEnabled
    case None => false
  }

  /** `updateConnectionState`: merge `u` into the state; the listener then sees the new state. */
  function Update(c: Client, u: StateUpdate): (r: Client)
    ensures r.config == c.config && r.room == c.room
    ensures r.state == Merge(c.state, u)
  {
    c.(state := Merge(c.state, u))
  }

  function NoticeOf(c: Client): Notice {
    Notice(c.state, MicrophoneEnabled(c))
  }

  /** `getToken` error mapping: a non-2xx answer, an unparsable body and a network failure all become one message. */
  function FetchToken(fetch: FetchOutcome): (r: Result<TokenResponse, Thrown>)
    ensures r.Failure? ==> r.error == ErrorObject(TokenFailureMessage)
    ensures r.Success? <==> fetch.HttpResponse? && fetch.Ok() && fetch.body.Some?
    ensures r.Success? ==> r.value == fetch.body.value
  {
    match fetch
    case HttpResponse(_, body) =>
      if fetch.Ok() && body.Some? then Success(body.value) else Failure(ErrorObject(TokenFailureMessage))
    case NetworkFailure => Failure(ErrorObject(TokenFailureMessage))
  }

  /** The participant the token is requested for: the configured name if non-empty, otherwise `user-<now>`. */
  function ParticipantFor(config: WidgetConfig, now: nat): (name: string)
    ensures IsNonEmpty(config.participantName) ==> name == config.participantName.value
    ensures !IsNonEmpty(config.participantName) ==> name == Decimal.UserName(now)
  {
    OrElse(config.participantName, Decimal.UserName(now))
  }

  /** The message stored in the state when connect fails. */
  function FailureText(t: Thrown): (msg: string)
    ensures t.ErrorObject? ==> msg == t.message
    ensures t.NonErrorValue? ==> msg == ConnectionFailedMessage
  {
    match t
    case ErrorObject(m) => m
    case NonErrorValue => ConnectionFailedMessage
  }

  predicate AlreadyConnected(c: Client) {
    c.room.Some? && c.room.value.status == RoomConnected
  }

  const ConnectingUpdate := StateUpdate(None, Some(true), None, Some(None), None)
  const ConnectedUpdate := StateUpdate(Some(true), Some(false), None, Some(None), None)

  function FailedUpdate(t: Thrown): StateUpdate {
    StateUpdate(Some(false), Some(false), None, Some(Some(FailureText(t))), None)
  }

  /** The connecting client after the join attempt ended with `t` thrown, holding `room`. */
  function ConnectFailed(c1: Client, room: Option<Room>, t: Thrown, request: TokenRequest): ConnectStep {
    var c2 := Update(c1.(room := room), FailedUpdate(t));
    ConnectStep(c2, Fail(t), [NoticeOf(c1), NoticeOf(c2)], Some(request))
  }

  /**
    `connect`: a no-op when the room is already connected; otherwise mark the
    state connecting, request a token, create the room and join it, then mark it
    connected, or on any failure mark it failed and rethrow.
   */
  function Connect(c: Client, now: nat, fetch: FetchOutcome, join: JoinOutcome): (r: ConnectStep)
    ensures AlreadyConnected(c) ==> r == ConnectStep(c, Pass, [], None)
    ensures !AlreadyConnected(c) ==>
      && r.request == Some(TokenRequest(c.config.tokenEndpoint, c.config.roomName, ParticipantFor(c.config, now)))
      && 1 <= |r.notices| <= 2
      && r.notices[0].state == c.state.(isConnecting := true, error := None)
      && r.notices[|r.notices| - 1].state == r.client.state
      && r.client.config == c.config
    ensures !AlreadyConnected(c) && r.outcome.Pass? ==>
      r.client.state == c.state.(isConnected := true, isConnecting := false, error := None)
    ensures !AlreadyConnected(c) && r.outcome.Fail? ==>
      r.client.state == c.state.(isConnected := false, isConnecting := false, error := Some(FailureText(r.outcome.error)))
    ensures r.outcome.Pass? <==> AlreadyConnected(c) || (FetchToken(fetch).Success? && join.Joined?)
    ensures !AlreadyConnected(c) && FetchToken(fetch).Failure? ==>
      r.outcome == Fail(ErrorObject(TokenFailureMessage)) && r.client.room == c.room
    ensures r.outcome.Pass? ==> r.client.room.Some? && r.client.room.value.status == RoomConnected
    ensures !AlreadyConnected(c) && FetchToken(fetch).Success? && join.Joined? ==>
      r.client.room == Some(Room(join.name, join.participants, RoomConnected, true, FetchToken(fetch).value))
    ensures !AlreadyConnected(c) && FetchToken(fetch).Success? && !join.Joined? ==>
      && r.outcome == Fail(join.thrown)
      && r.client.state.error == Some(FailureText(join.thrown))
      && r.client.room.Some?
      && r.client.room.value.status == (if join.JoinFailed? then RoomDisconnected else RoomConnected)
      && !r.client.room.value.micEnabled
      && r.client.room.value.credentials == FetchToken(fetch).value
    ensures !AlreadyConnected(c) && FetchToken(fetch).Success? && join.MicrophoneFailed? ==>
      r.client.room.value.name == join.name && r.client.room.value.numParticipants == join.participants
  {
    if AlreadyConnected(c) then
      ConnectStep(c, Pass, [], None)
    else
      var c1 := Update(c, ConnectingUpdate);
      var request := TokenRequest(c.config.tokenEndpoint, c.config.roomName, ParticipantFor(c.config, now));
      match FetchToken(fetch)
      case Failure(t) =>
        var c2 := Update(c1, FailedUpdate(t));
        ConnectStep(c2, Fail(t), [NoticeOf(c1), NoticeOf(c2)], Some(request))
      case Success(token) =>
        match join
        case Joined(name, n) =>
          var c2 := Update(c1.(room := Some(Room(name, n, RoomConnected, true, token))), ConnectedUpdate);
          ConnectStep(c2, Pass, [NoticeOf(c1), NoticeOf(c2)], Some(request))
        case JoinFailed(t) =>
          ConnectFailed(c1, Some(Room("", 0, RoomDisconnected, false, token)), t, request)
        case MicrophoneFailed(name, n, t) =>
          ConnectFailed(c1, Some(Room(name, n, RoomConnected, false, token)), t, request)
  }

  const ResetUpdate := StateUpdate(Some(false), Some(false), Some(false), Some(None), Some(Unknown))

  /** `disconnect`: leave and drop the room if there is one, and reset the state, room or not. */
  function Disconnect(c: Client): (r: Step<()>)
    ensures r.client == New(c.config)
    ensures r.result.Success?
    ensures r.notices == [Notice(Initial, false)]
  {
    var c1 := Update(c.(room := None), ResetUpdate);
    Step(c1, Success(()), [NoticeOf(c1)])
  }

  /**
    `toggleMicrophone`: flip the room's microphone and record it; throws without
    a room. `switched` is how the library's request to switch the microphone
    ended; when it rejects, the rejection propagates and nothing changes.
   */
  function ToggleMicrophone(c: Client, switched: Outcome<Thrown>): (r: Step<bool>)
    ensures c.room.None? ==> r == Step(c, Failure(ErrorObject(NotConnectedMessage)), [])
    ensures c.room.Some? && switched.Fail? ==> r == Step(c, Failure(switched.error), [])
    ensures c.room.Some? && switched.Pass? ==>
      var on := !c.room.value.micEnabled;
      && r.result == Success(on)
      && r.client == c.(room := Some(c.room.value.(micEnabled := on)), state := c.state.(isRecording := on))
      && r.notices == [Notice(r.client.state, on)]
  {
    match c.room
    case None => Step(c, Failure(ErrorObject(NotConnectedMessage)), [])
    case Some(room) =>
      match switched
      case Fail(t) => Step(c, Failure(t), [])
      case Pass =>
        var on := !room.micEnabled;
        var c1 := Update(c.(room := Some(room.(micEnabled := on))), StateUpdate(None, None, Some(on), None, None));
        Step(c1, Success(on), [NoticeOf(c1)])
  }

  /** The message stored when the room reports a disconnect; a missing or zero reason code is falsy and stores none. */
  function DisconnectedError(reason: Option<nat>): (e: Option<string>)
    ensures e.Some? <==> reason.Some? && reason.value != 0
    ensures e.Some? ==> e.value == "Disconnected: " + Decimal.ToDecimal(reason.value)
  {
    if reason.Some? && reason.value != 0 then Some("Disconnected: " + Decimal.ToDecimal(reason.value)) else None
  }

  /**
    The room's Disconnected event: the library has marked the room
    disconnected; the client clears the three flags and records the reason.
   */
  function OnDisconnected(c: Client, reason: Option<nat>): (r: Step<()>)
    ensures !r.client.state.isConnected && !r.client.state.isConnecting && !r.client.state.isRecording
    ensures r.client.state.connectionQuality == c.state.connectionQuality
    ensures r.client.state.error.Some? <==> reason.Some? && reason.value != 0
    ensures r.client.state.error.Some? ==> r.client.state.error.value == "Disconnected: " + Decimal.ToDecimal(reason.value)
    ensures r.client.config == c.config
    ensures r.client.room.Some? <==> c.room.Some?
    ensures r.client.room.Some? ==> r.client.room.value == c.room.value.(status := RoomDisconnected)
    ensures r.result.Success?
    ensures r.notices == [NoticeOf(r.client)]
  {
    var room := match c.room
      case Some(room) => Some(room.(status := RoomDisconnected))
      case None => None;
    var c1 := Update(c.(room := room), StateUpdate(Some(false), Some(false), Some(false), Some(DisconnectedError(reason)), None));
    Step(c1, Success(()), [NoticeOf(c1)])
  }

  /** `mapConnectionQuality`: the three known grades map to themselves, anything else to unknown. */
  function MapQuality(q: string): (r: Quality)
    ensures q == "excellent" <==> r == Excellent
    ensures q == "good" <==> r == Good
    ensures q == "poor" <==> r == Poor
    ensures r == Unknown <==> q !in {"excellent", "good", "poor"}
  {
    if q == "excellent" then Excellent
    else if q == "good" then Good
    else if q == "poor" then Poor
    else Unknown
  }

  /** The library's name for each grade; the grades it may report besides these (such as "lost") read as unknown. */
  function QualityName(q: Quality): string {
    match q
    case Excellent => "excellent"
    case Good => "good"
    case Poor => "poor"
    case Unknown => "unknown"
  }

  /** Every grade the state can hold is read back from its library name. */
  lemma MapQualityRoundTrip(q: Quality)
    ensures MapQuality(QualityName(q)) == q
  {
  }

  /** The ConnectionQualityChanged event: only reports about the local participant change the state. */
  function OnQualityChanged(c: Client, local: bool, quality: string): (r: Step<()>)
    ensures !local ==> r == Step(c, Success(()), [])
    ensures local ==> r.client == c.(state := c.state.(connectionQuality := MapQuality(quality)))
    ensures local ==> r.result == Success(()) && r.notices == [NoticeOf(r.client)]
  {
    if local then
      var c1 := Update(c, StateUpdate(None, None, None, None, Some(MapQuality(quality))));
      Step(c1, Success(()), [NoticeOf(c1)])
    else
      Step(c, Success(()), [])
  }

  /** A status change inside the library (for example a reconnect) that the client does not listen to. */
  function OnRoomStatus(c: Client, status: RoomStatus): (r: Client)
    ensures r.state == c.state && r.config == c.config
    ensures r.room.Some? <==> c.room.Some?
    ensures r.room.Some? ==> r.room.value == c.room.value.(status := status)
  {
    match c.room
    case Some(room) => c.(room := Some(room.(status := status)))
    case None => c
  }

  datatype RoomInfo = RoomInfo(name: string, participants: nat)

  /** `getRoomInfo`: the room's name and participant count, or null without a room. */
  function GetRoomInfo(c: Client): (r: Option<RoomInfo>)
    ensures r.None? <==> c.room.None?
    ensures r.Some? ==> r.value.name == c.room.value.name && r.value.participants == c.room.value.numParticipants
  {
    match c.room
    case Some(room) => Some(RoomInfo(room.name, room.numParticipants))
    case None => None
  }

  /** Room info disappears with disconnect. */
  lemma RoomInfoAfterDisconnect(c: Client)
    ensures GetRoomInfo(Disconnect(c).client) == None
  {
  }

  /** After a successful join, room info reports the joined room's name and head count. */
  lemma RoomInfoAfterJoin(c: Client, now: nat, fetch: FetchOutcome, name: string, n: nat)
    requires !AlreadyConnected(c) && FetchToken(fetch).Success?
    ensures GetRoomInfo(Connect(c, now, fetch, Joined(name, n)).client) == Some(RoomInfo(name, n))
  {
  }

  /**
    The client cannot tell token failures apart: a non-2xx answer, an
    unreadable body and a network failure leave it in the same place, with the
    same notices, whatever the room would have done.
   */
  lemma TokenFailuresIndistinguishable(c: Client, now: nat, f1: FetchOutcome, f2: FetchOutcome,
                                       j1: JoinOutcome, j2: JoinOutcome)
    requires FetchToken(f1).Failure? && FetchToken(f2).Failure?
    ensures Connect(c, now, f1, j1) == Connect(c, now, f2, j2)
  {
  }

  // ---------------------------------------------------------------------------
  // Sequences of calls and room events.

  datatype Event =
    | CallConnect(now: nat, fetch: FetchOutcome, join: JoinOutcome)
    | CallDisconnect
    | CallToggle(switched: Outcome<Thrown>)
    | RoomLeft(reason: Option<nat>)
    | QualityChanged(local: bool, quality: string)
    | RoomStatusChanged(status: RoomStatus)

  /** The client after some events, and every state the listener saw on the way. */
  datatype Trace = Trace(client: Client, notices: seq<Notice>)

  function Apply(c: Client, e: Event): Trace {
    match e
    case CallConnect(now, fetch, join) =>
      var r := Connect(c, now, fetch, join); Trace(r.client, r.notices)
    case CallDisconnect =>
      var r := Disconnect(c); Trace(r.client, r.notices)
    case CallToggle(switched) =>
      var r := ToggleMicrophone(c, switched); Trace(r.client, r.notices)
    case RoomLeft(reason) =>
      var r := OnDisconnected(c, reason); Trace(r.client, r.notices)
    case QualityChanged(local, quality) =>
      var r := OnQualityChanged(c, local, quality); Trace(r.client, r.notices)
    case RoomStatusChanged(status) =>
      Trace(OnRoomStatus(c, status), [])
  }

  function Run(c: Client, events: seq<Event>): Trace
    decreases |events|
  {
    if |events| == 0 then Trace(c, [])
    else
      var t := Apply(c, events[0]);
      var rest := Run(t.client, events[1..]);
      Trace(rest.client, t.notices + rest.notices)
  }

  /**
    Every operation and event leaves the two flags apart once it has completed,
    and of the states it reports only connect's first one can carry both, and
    only when the state already said connected.
   */
  lemma ApplyKeepsFlagsApart(c: Client, e: Event)
    requires !BothFlags(c.state)
    ensures !BothFlags(Apply(c, e).client.state)
    ensures forall i :: 0 <= i < |Apply(c, e).notices| && BothFlags(Apply(c, e).notices[i].state) ==>
      i == 0 && e.CallConnect? && c.state.isConnected
  {
  }

  /** After any sequence of calls and events, the state at rest never has both flags. */
  lemma {:induction false} RunKeepsFlagsApart(c: Client, events: seq<Event>)
    requires !BothFlags(c.state)
    ensures !BothFlags(Run(c, events).client.state)
    decreases |events|
  {
    if |events| > 0 {
      ApplyKeepsFlagsApart(c, events[0]);
      RunKeepsFlagsApart(Apply(c, events[0]).client, events[1..]);
    }
  }

  /** Starting a connect over a stale session (room not connected, state connected) reports both flags at once. */
  lemma ConnectOverStaleSession(c: Client, now: nat, fetch: FetchOutcome, join: JoinOutcome)
    requires c.room.Some? && c.room.value.status != RoomConnected && c.state.isConnected
    ensures BothFlags(Connect(c, now, fetch, join).notices[0].state)
  {
  }

  /**
    Such a stale session is reachable: connect, let the library start
    reconnecting, connect again; the listener then sees both flags raised.
   */
  lemma BothFlagsReachable(config: WidgetConfig, token: TokenResponse)
    ensures var t := Run(New(config), [
        CallConnect(0, HttpResponse(200, Some(token)), Joined("room", 1)),
        RoomStatusChanged(RoomReconnecting),
        CallConnect(1, NetworkFailure, Joined("room", 1))]);
      |t.notices| == 4 && BothFlags(t.notices[2].state) && !BothFlags(t.client.state)
  {
    var e1 := CallConnect(0, HttpResponse(200, Some(token)), Joined("room", 1));
    var e2 := RoomStatusChanged(RoomReconnecting);
    var e3 := CallConnect(1, NetworkFailure, Joined("room", 1));
    var c0 := New(config);
    var t1 := Apply(c0, e1);
    assert t1.client.state.isConnected && |t1.notices| == 2;
    var t2 := Apply(t1.client, e2);
    assert t2.client.room.Some? && t2.client.room.value.status == RoomReconnecting;
    var t3 := Apply(t2.client, e3);
    ConnectOverStaleSession(t2.client, 1, NetworkFailure, Joined("room", 1));
    assert |t3.notices| == 2 && BothFlags(t3.notices[0].state);
    assert Run(t2.client, [e3]) == Trace(t3.client, t3.notices + []) by {
      assert [e3][1..] == [];
    }
    assert Run(t1.client, [e2, e3]) == Trace(t3.client, [] + t3.notices) by {
      assert [e2, e3][1..] == [e3];
    }
    assert [e1, e2, e3][1..] == [e2, e3];
  }

  /**
    When the microphone cannot be switched on after a successful join, the
    room is connected while the state says it is not, and every later connect
    returns at once without a token request.
   */
  lemma MicrophoneFailureBlocksReconnect(c: Client, now: nat, fetch: FetchOutcome, name: string, n: nat, t: Thrown,
                                         now2: nat, fetch2: FetchOutcome, join2: JoinOutcome)
    requires !AlreadyConnected(c) && FetchToken(fetch).Success?
    ensures var c1 := Connect(c, now, fetch, MicrophoneFailed(name, n, t)).client;
      && !c1.state.isConnected && !c1.state.isConnecting && c1.state.error.Some?
      && Connect(c1, now2, fetch2, join2) == ConnectStep(c1, Pass, [], None)
  {
  }
}

=== FILE: standalone.dfy ===
/**
  Standalone start-up: the configuration read from the page's query string
  when the widget is loaded on its own, handed to the embedded widget as its
  initial configuration.
 */
module Standalone {
  import opened Basics
  import opened Types
  import Decimal
  import IframeWidget

  /**
    The query string as a map from parameter name to its first value, which is
    what a lookup by name returns.
   */
  type Query = map<string, string>

  function Param(q: Query, name: string): (r: Option<string>)
    ensures r.Some? <==> name in q
    ensures r.Some? ==> r.value == q[name]
  {
    if name in q then Some(q[name]) else None
  }

  /**
    The configuration built from the query string: room and participant fall
    back when absent or empty, the two flags hold only for the exact string
    "true", and the theme is passed through unvalidated, defaulting to light.
   */
  function FromQuery(q: Query, now: nat): (p: IframeWidget.ConfigPatch)
    ensures IsNonEmpty(Param(q, "roomName")) ==> p.roomName == Some(q["roomName"])
    ensures !IsNonEmpty(Param(q, "roomName")) ==> p.roomName == Some("voice-agent-room")
    ensures IsNonEmpty(Param(q, "participantName")) ==> p.participantName == Some(Some(q["participantName"]))
    ensures !IsNonEmpty(Param(q, "participantName")) ==> p.participantName == Some(Some(Decimal.UserName(now)))
    ensures p.enableTranscription.Some? && p.enableTranscription.value.Some?
    ensures p.enableTranscription.value.value <==> "enableTranscription" in q && q["enableTranscription"] == "true"
    ensures p.autoConnect.Some? && p.autoConnect.value.Some?
    ensures p.autoConnect.value.value <==> "autoConnect" in q && q["autoConnect"] == "true"
    ensures IsNonEmpty(Param(q, "theme")) ==> p.theme == Some(Some(q["theme"]))
    ensures !IsNonEmpty(Param(q, "theme")) ==> p.theme == Some(Some("light"))
    ensures p.tokenEndpoint.None? && p.serverUrl.None?
  {
    IframeWidget.ConfigPatch(
      None,
      Some(OrElse(Param(q, "roomName"), "voice-agent-room")),
      Some(Some(OrElse(Param(q, "participantName"), Decimal.UserName(now)))),
      None,
      Some(Some(Param(q, "autoConnect") == Some("true"))),
      Some(Some(Param(q, "enableTranscription") == Some("true"))),
      Some(Some(OrElse(Param(q, "theme"), "light"))))
  }

  /**
    The configuration a standalone widget starts with. Every property except the
    endpoint comes from the query string, so the embedded widget's defaults for
    transcription (on) and participant never apply: transcription is on only
    for "true", and the participant name is never absent.
   */
  lemma StandaloneStart(q: Query, now: nat)
    ensures var c := IframeWidget.InitialConfig(FromQuery(q, now), now);
      && c.tokenEndpoint == "/api/token"
      && c.serverUrl.None?
      && (IsSet(c.enableTranscription) <==> Param(q, "enableTranscription") == Some("true"))
      && (IsSet(c.autoConnect) <==> Param(q, "autoConnect") == Some("true"))
      && IsNonEmpty(c.participantName)
      && c.theme.Some? && c.theme.value != ""
  {
  }
}

=== FILE: token_api.dfy ===
/**
  The token endpoint: the serverless handler and the stand-alone HTTP handler
  that issue room access tokens. Each turns a request, the environment and
  the clock reading into a response; signing is not modelled, so a token is
  its claim set together with the key and algorithm it is signed with.
 */
module TokenApi {
  import opened Basics
  import Decimal

  /**
    A JSON value as the handler sees it once decoded. Objects and strings are
    kept; every other value is opaque, with its Python type name and its text.
   */
  datatype Json = JObject(fields: map<string, Json>) | JString(text: string) | JOther(typeName: string, repr: string)

  function TypeName(j: Json): string {
    match j
    case JObject(_) => "dict"
    case JString(_) => "str"
    case JOther(t, _) => t
  }

  /** What decoding a body text gives: a value, or the decode error's message. */
  datatype Parsed = ParsedOk(value: Json) | ParseError(message: string)

  /**
    The body of a serverless request: absent, a string (with what decoding it
    gives), or a value that is not a string, which the handler uses as it is:
    an object, or anything else with its Python type name and its text.
   */
  datatype Body =
    | NoBody
    | TextBody(text: string, parsed: Parsed)
    | ObjectBody(fields: map<string, Json>)
    | OtherBody(typeName: string, repr: string)

  /** An HTTP request: its method and its body. */
  datatype Request = Request(verb: string, body: Body)

  /** The process environment. */
  type Env = map<string, string>

  datatype Permissions = Permissions(canPublish: bool, canSubscribe: bool, canPublishData: bool, canUpdateMetadata: bool)

  /**
    The claim set: issuer, subject, audience, expiry, not-before and issued-at
    as registered in section 4.1 of RFC 7519, plus the room and the grants.
   */
  datatype Claims = Claims(
    iss: string,
    sub: Json,
    aud: string,
    exp: int,
    nbf: int,
    iat: int,
    room: Json,
    permissions: Permissions)

  datatype Token = Token(claims: Claims, secret: string, algorithm: string)

  datatype ResponseBody =
    | EmptyBody
    | ErrorJson(error: string)
    | TokenJson(token: Token, url: string)
    | ErrorPage(message: string)

  datatype Response = Response(status: int, headers: map<string, string>, body: ResponseBody)

  const DefaultTtl := 3600
  const DefaultRoom := "default-room"
  const DefaultUrl := "wss://your-project.livekit.cloud"
  const KeyVar := "LIVEKIT_API_KEY"
  const SecretVar := "LIVEKIT_API_SECRET"
  const UrlVar := "LIVEKIT_URL"
  const MissingCredentials := "Missing LiveKit credentials"
  const GenerationError := "Error generating token: "

  const CorsHeaders := map[
    "Access-Control-Allow-Origin" := "*",
    "Access-Control-Allow-Methods" := "POST, OPTIONS",
    "Access-Control-Allow-Headers" := "Content-Type"]

  const JsonHeaders := map["Access-Control-Allow-Origin" := "*", "Content-Type" := "application/json"]

  /** `generate_livekit_token`'s payload: valid from `now` for `ttl` seconds, every grant given. */
  function ClaimsFor(apiKey: string, room: Json, participant: Json, now: int, ttl: int): (c: Claims)
    ensures c.exp == now + ttl && c.nbf == now && c.iat == now
    ensures c.exp - c.iat == ttl
    ensures c.iss == apiKey && c.sub == participant && c.aud == "livekit" && c.room == room
    ensures c.permissions.canPublish && c.permissions.canSubscribe
    ensures c.permissions.canPublishData && c.permissions.canUpdateMetadata
  {
    Claims(apiKey, participant, "livekit", now + ttl, now, now, room, Permissions(true, true, true, true))
  }

  /**
    Whether a verifier accepts the claims at time `t`: not before the
    not-before time and before the expiry, as sections 4.1.4 and 4.1.5 of
    RFC 7519 require.
   */
  predicate ValidAt(c: Claims, t: int) {
    c.nbf <= t < c.exp
  }

  /** Claims issued at `now` with lifetime `ttl` are accepted exactly during `ttl` seconds from `now`. */
  lemma ValidityWindow(apiKey: string, room: Json, participant: Json, now: int, ttl: int, t: int)
    ensures ValidAt(ClaimsFor(apiKey, room, participant, now, ttl), t) <==> now <= t < now + ttl
  {
  }

  /** `generate_livekit_token` with its default lifetime of one hour, signed HS256 with the secret. */
  function GenerateToken(apiKey: string, secret: string, room: Json, participant: Json, now: int): (t: Token)
    ensures t.claims == ClaimsFor(apiKey, room, participant, now, 3600)
    ensures t.secret == secret && t.algorithm == "HS256"
  {
    Token(ClaimsFor(apiKey, room, participant, now, DefaultTtl), secret, "HS256")
  }

  /** A generated token is accepted for exactly the hour that starts when it is issued. */
  lemma GeneratedTokenLastsAnHour(apiKey: string, secret: string, room: Json, participant: Json, now: int, t: int)
    ensures ValidAt(GenerateToken(apiKey, secret, room, participant, now).claims, t) <==> now <= t < now + 3600
  {
    ValidityWindow(apiKey, room, participant, now, DefaultTtl, t);
  }

  /** An unset or empty variable: Python's `not value`. */
  predicate Missing(env: Env, name: string) {
    name !in env || env[name] == ""
  }

  /** The server URL: the variable when it is set, even to the empty string; the placeholder otherwise. */
  function ServerUrl(env: Env): (url: string)
    ensures UrlVar in env ==> url == env[UrlVar]
    ensures UrlVar !in env ==> url == "wss://your-project.livekit.cloud"
  {
    if UrlVar in env then env[UrlVar] else DefaultUrl
  }

  /** The text of the AttributeError raised by calling `.get` on a value that is not a dict. */
  function NoGet(j: Json): string {
    "'" + TypeName(j) + "' object has no attribute 'get'"
  }

  /** `data.get(key, default)`: the value or the default on a dict, an AttributeError on anything else. */
  function Get(data: Json, key: string, default: Json): (r: Result<Json, string>)
    ensures r.Success? <==> data.JObject?
    ensures data.JObject? && key in data.fields ==> r.value == data.fields[key]
    ensures data.JObject? && key !in data.fields ==> r.value == default
    ensures !data.JObject? ==> r.error == NoGet(data)
  {
    match data
    case JObject(fields) => Success(if key in fields then fields[key] else default)
    case _ => Failure(NoGet(data))
  }

  /** The room and participant a decoded body asks for, defaulted, then the signed token. */
  function Mint(apiKey: string, secret: string, data: Json, now: nat): (r: Result<Token, string>)
    ensures r.Success? <==> data.JObject?
    ensures r.Failure? ==> r.error == NoGet(data)
    ensures r.Success? ==> r.value == GenerateToken(apiKey, secret, r.value.claims.room, r.value.claims.sub, now)
    ensures r.Success? ==>
      var f := data.fields;
      && r.value.claims.room == (if "roomName" in f then f["roomName"] else JString("default-room"))
      && r.value.claims.sub == (if "participantName" in f then f["participantName"] else JString(Decimal.UserName(now)))
      && r.value.claims.iss == apiKey && r.value.secret == secret
      && r.value.claims.exp == now + 3600 && r.value.claims.iat == now
  {
    match Get(data, "roomName", JString(DefaultRoom))
    case Failure(e) => Failure(e)
    case Success(room) =>
      match Get(data, "participantName", JString(Decimal.UserName(now)))
      case Failure(e) => Failure(e)
      case Success(participant) => Success(GenerateToken(apiKey, secret, room, participant, now))
  }

  /**
    The serverless handler's view of the body: absent means "{}", an empty
    string means {}, a string decodes to its value or fails with the decode
    error, and any other value is used as it is.
   */
  function RequestData(body: Body): (r: Result<Json, string>)
    ensures body.NoBody? ==> r == Success(JObject(map[]))
    ensures body.TextBody? && body.text == "" ==> r == Success(JObject(map[]))
    ensures body.TextBody? && body.text != "" && body.parsed.ParseError? ==> r == Failure(body.parsed.message)
    ensures body.TextBody? && body.text != "" && body.parsed.ParsedOk? ==> r == Success(body.parsed.value)
    ensures body.ObjectBody? ==> r == Success(JObject(body.fields))
    ensures body.OtherBody? ==> r == Success(JOther(body.typeName, body.repr))
    ensures r.Failure? <==> body.TextBody? && body.text != "" && body.parsed.ParseError?
  {
    match body
    case NoBody => Success(JObject(map[]))
    case TextBody(text, parsed) =>
      if text == "" then Success(JObject(map[]))
      else (
        match parsed
        case ParsedOk(v) => Success(v)
        case ParseError(m) => Failure(m))
    case ObjectBody(fields) => Success(JObject(fields))
    case OtherBody(typeName, repr) => Success(JOther(typeName, repr))
  }

  /**
    The serverless `handler`: OPTIONS is answered for CORS, every method but
    POST is refused, missing credentials are reported before the body is
    read, and any failure after that becomes a 500 with the error's text.
   */
  function Handler(req: Request, env: Env, now: nat): (r: Response)
    ensures req.verb == "OPTIONS" ==> r == Response(200, CorsHeaders, EmptyBody)
    ensures req.verb != "OPTIONS" && req.verb != "POST" ==> r == Response(405, JsonHeaders, ErrorJson("Method not allowed"))
    ensures req.verb == "POST" && (Missing(env, KeyVar) || Missing(env, SecretVar)) ==>
      r == Response(500, JsonHeaders, ErrorJson("Missing LiveKit credentials"))
    ensures r.status == 200 && req.verb != "OPTIONS" ==>
      && req.verb == "POST" && !Missing(env, KeyVar) && !Missing(env, SecretVar)
      && r.body.TokenJson? && r.body.url == ServerUrl(env)
      && r.body.token.claims.iss == env[KeyVar] && r.body.token.secret == env[SecretVar]
    ensures req.verb == "POST" && !Missing(env, KeyVar) && !Missing(env, SecretVar) ==>
      var data := RequestData(req.body);
      && (r.status == 200 <==> data.Success? && data.value.JObject?)
      && (r.status == 200 ==>
            r == Response(200, JsonHeaders,
                          TokenJson(Mint(env[KeyVar], env[SecretVar], data.value, now).value, ServerUrl(env))))
      && (data.Failure? ==> r == Response(500, JsonHeaders, ErrorJson("Error generating token: " + data.error)))
      && (data.Success? && !data.value.JObject? ==>
            r == Response(500, JsonHeaders, ErrorJson("Error generating token: " + NoGet(data.value))))
    ensures r.status in {200, 405, 500}
  {
    if req.verb == "OPTIONS" then Response(200, CorsHeaders, EmptyBody)
    else if req.verb != "POST" then Response(405, JsonHeaders, ErrorJson("Method not allowed"))
    else if Missing(env, KeyVar) || Missing(env, SecretVar) then
      Response(500, JsonHeaders, ErrorJson(MissingCredentials))
    else match RequestData(req.body)
      case Failure(e) => Response(500, JsonHeaders, ErrorJson(GenerationError + e))
      case Success(data) =>
        match Mint(env[KeyVar], env[SecretVar], data, now)
        case Failure(e) => Response(500, JsonHeaders, ErrorJson(GenerationError + e))
        case Success(token) => Response(200, JsonHeaders, TokenJson(token, ServerUrl(env)))
  }

  /** The stand-alone handler's OPTIONS answer. */
  function DoOptions(): (r: Response)
    ensures r.status == 200 && r.body == EmptyBody
    ensures "Access-Control-Allow-Methods" in r.headers && r.headers["Access-Control-Allow-Methods"] == "POST, OPTIONS"
  {
    Response(200, CorsHeaders, EmptyBody)
  }

  /** The stand-alone handler's view of the body: an empty or undecodable body counts as {}. */
  function PostData(text: string, parsed: Parsed): Json {
    if text == "" then JObject(map[])
    else match parsed
      case ParsedOk(v) => v
      case ParseError(_) => JObject(map[])
  }

  /**
    The stand-alone handler's POST: missing credentials are reported first; a
    body that does not decode counts as {}; a decoded non-object fails.
    Errors go out as the server's error page.
   */
  function DoPost(env: Env, text: string, parsed: Parsed, now: nat): (r: Response)
    ensures Missing(env, KeyVar) || Missing(env, SecretVar) ==> r == Response(500, map[], ErrorPage("Missing LiveKit credentials"))
    ensures r.status == 200 ==> r.body.TokenJson? && r.body.url == ServerUrl(env)
    ensures !Missing(env, KeyVar) && !Missing(env, SecretVar) ==>
      && (r.status == 200 <==> text == "" || parsed.ParseError? || parsed.value.JObject?)
      && (r.status == 200 ==>
            r == Response(200, CorsHeaders["Content-Type" := "application/json"],
                          TokenJson(Mint(env[KeyVar], env[SecretVar], PostData(text, parsed), now).value, ServerUrl(env))))
      && (text != "" && parsed.ParsedOk? && !parsed.value.JObject? ==>
            r == Response(500, map[], ErrorPage("Error generating token: " + NoGet(parsed.value))))
    ensures r.status in {200, 500}
  {
    if Missing(env, KeyVar) || Missing(env, SecretVar) then Response(500, map[], ErrorPage(MissingCredentials))
    else
      var data := PostData(text, parsed);
      match Mint(env[KeyVar], env[SecretVar], data, now)
      case Failure(e) => Response(500, map[], ErrorPage(GenerationError + e))
      case Success(token) => Response(200, CorsHeaders["Content-Type" := "application/json"], TokenJson(token, ServerUrl(env)))
  }

  /** Without credentials the serverless answer does not depend on the body at all. */
  lemma CredentialsCheckedBeforeBody(env: Env, now: nat, b1: Body, b2: Body)
    requires Missing(env, KeyVar) || Missing(env, SecretVar)
    ensures Handler(Request("POST", b1), env, now) == Handler(Request("POST", b2), env, now)
  {
  }

  /** An empty POST gets a token for `default-room` and `user-<now>`, valid for one hour from `now`. */
  lemma EmptyRequestUsesDefaults(env: Env, now: nat)
    requires !Missing(env, KeyVar) && !Missing(env, SecretVar)
    ensures var r := Handler(Request("POST", NoBody), env, now);
      && r.status == 200 && r.body.TokenJson?
      && r.body.token.claims.room == JString("default-room")
      && r.body.token.claims.sub == JString(Decimal.UserName(now))
      && r.body.token.claims.exp == now + 3600
      && r.body.token.claims.nbf == now && r.body.token.claims.iat == now
      && r.body.token.claims.aud == "livekit"
  {
  }

  /**
    A body that does not decode: the stand-alone handler issues a default
    token, the serverless handler answers 500 with the decode error's text.
   */
  lemma MalformedBodyDivergence(env: Env, now: nat, text: string, message: string)
    requires !Missing(env, KeyVar) && !Missing(env, SecretVar) && text != ""
    ensures var r := DoPost(env, text, ParseError(message), now);
      && r.status == 200 && r.body.TokenJson?
      && r.body.token.claims.room == JString("default-room")
      && r.body.token.claims.sub == JString(Decimal.UserName(now))
    ensures Handler(Request("POST", TextBody(text, ParseError(message))), env, now) ==
      Response(500, JsonHeaders, ErrorJson("Error generating token: " + message))
  {
  }

  /** On a body that decodes, both handlers answer with the same status, token and URL. */
  lemma EntryPointsAgreeOnValidBodies(env: Env, now: nat, text: string, value: Json)
    requires !Missing(env, KeyVar) && !Missing(env, SecretVar)
    ensures var serverless := Handler(Request("POST", TextBody(text, ParsedOk(value))), env, now);
      var standalone := DoPost(env, text, ParsedOk(value), now);
      && serverless.status == standalone.status
      && (serverless.status == 200 ==> serverless.body == standalone.body)
  {
  }

  /** Both entry points answer a CORS preflight the same way, whatever the body. */
  lemma OptionsAnswersAgree(body: Body, env: Env, now: nat)
    ensures Handler(Request("OPTIONS", body), env, now) == DoOptions()
  {
  }
}

=== FILE: types.dfy ===
/** The shared records of the widget: configuration, connection state and token exchange. */
module Types {
  import opened Basics

  /** Link quality as the widget reports it. */
  datatype Quality = Excellent | Good | Poor | Unknown

  /**
    The connection state the client publishes to the UI. `error` is `None` for
    JavaScript's `null`.
   */
  datatype ConnectionState = ConnectionState(
    isConnected: bool,
    isConnecting: bool,
    isRecording: bool,
    error: Option<string>,
    connectionQuality: Quality)

  /**
    The widget configuration. Optional properties are `None` when undefined.
    `theme` is declared as 'light' | 'dark' but is filled from unvalidated
    strings, so any string can reach it.
   */
  datatype WidgetConfig = WidgetConfig(
    tokenEndpoint: string,
    roomName: string,
    participantName: Option<string>,
    serverUrl: Option<string>,
    autoConnect: Option<bool>,
    enableTranscription: Option<bool>,
    theme: Option<string>)

  /** What the token endpoint answers with. */
  datatype TokenResponse = TokenResponse(token: string, url: string)

  /** One outbound token request: the endpoint POSTed to and its JSON body. */
  datatype TokenRequest = TokenRequest(endpoint: string, roomName: string, participantName: string)

  /** JavaScript truthiness of an optional boolean property. */
  predicate IsSet(b: Option<bool>) {
    b == Some(true)
  }

  /** JavaScript truthiness of an optional string: present and non-empty. */
  predicate IsNonEmpty(s: Option<string>) {
    s.Some? && s.value != ""
  }

  /** `s || fallback` for an optional string. */
  function OrElse(s: Option<string>, fallback: string): (r: string)
    ensures IsNonEmpty(s) ==> r == s.value
    ensures !IsNonEmpty(s) ==> r == fallback
  {
    if IsNonEmpty(s) then s.value else fallback
  }
}

=== FILE: voice_widget.dfy ===
/**
  The widget controller: the React component's state (capability, permission,
  the client it created, the last connection state it was told about, the
  microphone flag, the transcript) and its handlers, plus the pure
  derivations that decide what the compact panel shows.
 */
module VoiceWidget {
  import opened Basics
  import opened Types
  import LiveKitClient

  datatype Widget = Widget(
    config: WidgetConfig,
    webRtcAvailable: bool,
    hasPermission: bool,
    client: Option<LiveKitClient.Client>,
    conn: ConnectionState,
    micEnabled: bool,
    transcript: string,
    reported: seq<LiveKitClient.Thrown>, // values passed to the onError callback, in order
    requests: seq<TokenRequest>,         // token requests sent by the client, in order
    forwarded: seq<ConnectionState>)     // states passed to the onConnectionStateChange callback, in order

  const UnsupportedMessage := "WebRTC is not supported in this browser"

  /** The component's state when it first renders, before initialisation has run. */
  function Mount(config: WidgetConfig): (w: Widget)
    ensures w.config == config && w.client.None?
    ensures !w.webRtcAvailable && !w.hasPermission && !w.micEnabled
    ensures w.conn == LiveKitClient.Initial && w.transcript == "" && w.reported == [] && w.requests == []
    ensures w.forwarded == []
  {
    Widget(config, false, false, None, LiveKitClient.Initial, false, "", [], [], [])
  }

  /**
    `handleConnectionStateChange`: take the state and pass it on to the host's
    callback; when it says connected, re-read the microphone flag.
   */
  function See(w: Widget, n: LiveKitClient.Notice): Widget {
    w.(conn := n.state,
       forwarded := w.forwarded + [n.state],
       micEnabled := if n.state.isConnected then n.micEnabled else w.micEnabled)
  }

  /** The states carried by a list of notices, in order. */
  function States(notices: seq<LiveKitClient.Notice>): (states: seq<ConnectionState>)
    ensures |states| == |notices|
    ensures forall i :: 0 <= i < |notices| ==> states[i] == notices[i].state
  {
    seq(|notices|, i requires 0 <= i < |notices| => notices[i].state)
  }

  /** True when some notice says connected. */
  predicate AnyConnected(notices: seq<LiveKitClient.Notice>) {
    exists i :: 0 <= i < |notices| && notices[i].state.isConnected
  }

  /** The position of the last notice that says connected. */
  function LastConnected(notices: seq<LiveKitClient.Notice>): (i: nat)
    requires AnyConnected(notices)
    ensures i < |notices| && notices[i].state.isConnected
    ensures forall j :: i < j < |notices| ==> !notices[j].state.isConnected
    decreases |notices|
  {
    var k := |notices| - 1;
    if notices[k].state.isConnected then k
    else
      assert AnyConnected(notices[..k]) by {
        var i :| 0 <= i < |notices| && notices[i].state.isConnected;
        assert notices[..k][i] == notices[i];
      }
      LastConnected(notices[..k])
  }

  /**
    The listener called once per notice, in order: the widget ends with the
    last state, has passed every state on to the host, and holds the
    microphone flag read at the last notice that said connected.
   */
  function Observe(w: Widget, notices: seq<LiveKitClient.Notice>): (r: Widget)
    ensures r == w.(conn := r.conn, micEnabled := r.micEnabled, forwarded := r.forwarded)
    ensures r.forwarded == w.forwarded + States(notices)
    ensures |notices| > 0 ==> r.conn == notices[|notices| - 1].state
    ensures |notices| == 0 ==> r == w
    ensures !AnyConnected(notices) ==> r.micEnabled == w.micEnabled
    ensures AnyConnected(notices) ==> r.micEnabled == notices[LastConnected(notices)].micEnabled
    decreases |notices|
  {
    if |notices| == 0 then w
    else
      var k := |notices| - 1;
      var prev := Observe(w, notices[..k]);
      assert States(notices) == States(notices[..k]) + [notices[k].state];
      assert AnyConnected(notices) && !notices[k].state.isConnected ==>
        AnyConnected(notices[..k]) && LastConnected(notices) == LastConnected(notices[..k]);
      assert !AnyConnected(notices) ==> !AnyConnected(notices[..k]) by {
        if AnyConnected(notices[..k]) {
          var i :| 0 <= i < k && notices[..k][i].state.isConnected;
          assert notices[i].state.isConnected;
        }
      }
      See(prev, notices[k])
  }

  function RequestLog(request: Option<TokenRequest>): seq<TokenRequest> {
    match request
    case Some(q) => [q]
    case None => []
  }

  /** `handleConnect`: nothing without a client; otherwise connect and report a thrown error. */
  function HandleConnect(w: Widget, now: nat, fetch: LiveKitClient.FetchOutcome, join: LiveKitClient.JoinOutcome): (r: Widget)
    ensures w.client.None? ==> r == w
    ensures w.client.Some? ==>
      var s := LiveKitClient.Connect(w.client.value, now, fetch, join);
      && r.client == Some(s.client)
      && r.requests == w.requests + RequestLog(s.request)
      && (s.notices != [] ==> r.conn == s.client.state)
      && r.reported == w.reported + (if s.outcome.Fail? then [s.outcome.error] else [])
      && r.config == w.config && r.transcript == w.transcript
      && r.hasPermission == w.hasPermission && r.webRtcAvailable == w.webRtcAvailable
      && r.forwarded == w.forwarded + States(s.notices)
    ensures w.client.Some? && !LiveKitClient.AlreadyConnected(w.client.value)
      && LiveKitClient.Connect(w.client.value, now, fetch, join).outcome.Pass?
      ==> r.micEnabled
    ensures w.client.Some? && LiveKitClient.AlreadyConnected(w.client.value) ==> r == w
    ensures w.client.Some? ==>
      var s := LiveKitClient.Connect(w.client.value, now, fetch, join);
      r.micEnabled == (if AnyConnected(s.notices) then s.notices[LastConnected(s.notices)].micEnabled else w.micEnabled)
  {
    match w.client
    case None => w
    case Some(c) =>
      var s := LiveKitClient.Connect(c, now, fetch, join);
      var w1 := Observe(w.(client := Some(s.client), requests := w.requests + RequestLog(s.request)), s.notices);
      match s.outcome
      case Pass => w1
      case Fail(t) => w1.(reported := w1.reported + [t])
  }

  /** `handleDisconnect`: nothing without a client; otherwise disconnect, switch the mic flag off and clear the transcript. */
  function HandleDisconnect(w: Widget): (r: Widget)
    ensures w.client.None? ==> r == w
    ensures w.client.Some? ==>
      r == w.(client := Some(LiveKitClient.New(w.client.value.config)),
              conn := LiveKitClient.Initial,
              micEnabled := false,
              transcript := "",
              forwarded := w.forwarded + [LiveKitClient.Initial])
  {
    match w.client
    case None => w
    case Some(c) =>
      var s := LiveKitClient.Disconnect(c);
      var w1 := Observe(w.(client := Some(s.client)), s.notices);
      w1.(micEnabled := false, transcript := "")
  }

  /**
    `handleToggleMicrophone`: nothing without a client; otherwise toggle and
    take the result, or report the error. `switched` is how the library's
    request to switch the microphone ended.
   */
  function HandleToggle(w: Widget, switched: Outcome<LiveKitClient.Thrown>): (r: Widget)
    ensures w.client.None? ==> r == w
    ensures w.client.Some? && w.client.value.room.None? ==>
      r == w.(reported := w.reported + [LiveKitClient.ErrorObject(LiveKitClient.NotConnectedMessage)])
    ensures w.client.Some? && w.client.value.room.Some? && switched.Fail? ==>
      r == w.(reported := w.reported + [switched.error])
    ensures w.client.Some? && w.client.value.room.Some? && switched.Pass? ==>
      var c := w.client.value;
      var on := !c.room.value.micEnabled;
      var state := c.state.(isRecording := on);
      && r == w.(client := Some(c.(room := Some(c.room.value.(micEnabled := on)), state := state)),
                 conn := state,
                 micEnabled := on,
                 forwarded := w.forwarded + [state])
      && r.conn.isRecording == r.micEnabled
  {
    match w.client
    case None => w
    case Some(c) =>
      var s := LiveKitClient.ToggleMicrophone(c, switched);
      var w1 := Observe(w.(client := Some(s.client)), s.notices);
      match s.result
      case Success(on) => w1.(micEnabled := on)
      case Failure(t) => w1.(reported := w1.reported + [t])
  }

  /**
    `initializeWidget`: record capability; without WebRTC report it and stop
    (no client is created); otherwise record permission, create the client and
    connect when auto-connect is configured and permission was granted.
   */
  function Initialize(w: Widget, webRtc: bool, permission: bool,
                      now: nat, fetch: LiveKitClient.FetchOutcome, join: LiveKitClient.JoinOutcome): (r: Widget)
    ensures r.webRtcAvailable == webRtc && r.config == w.config
    ensures !webRtc ==>
      r == w.(webRtcAvailable := false, reported := w.reported + [LiveKitClient.ErrorObject(UnsupportedMessage)])
    ensures webRtc ==> r.hasPermission == permission && r.client.Some?
    ensures webRtc && IsSet(w.config.autoConnect) && permission ==>
      r.requests == w.requests + [TokenRequest(w.config.tokenEndpoint, w.config.roomName,
                                               LiveKitClient.ParticipantFor(w.config, now))]
    ensures !(webRtc && IsSet(w.config.autoConnect) && permission) ==> r.requests == w.requests
    ensures webRtc && !(IsSet(w.config.autoConnect) && permission) ==>
      r == w.(webRtcAvailable := true, hasPermission := permission, client := Some(LiveKitClient.New(w.config)))
    ensures webRtc && IsSet(w.config.autoConnect) && permission ==>
      var s := LiveKitClient.Connect(LiveKitClient.New(w.config), now, fetch, join);
      && r.client == Some(s.client)
      && r.transcript == w.transcript
      && r.reported == w.reported + (if s.outcome.Fail? then [s.outcome.error] else [])
    ensures |r.forwarded| >= |w.forwarded| && r.forwarded[..|w.forwarded|] == w.forwarded
  {
    var w1 := w.(webRtcAvailable := webRtc);
    if !webRtc then
      w1.(reported := w1.reported + [LiveKitClient.ErrorObject(UnsupportedMessage)])
    else
      var w2 := w1.(hasPermission := permission, client := Some(LiveKitClient.New(w.config)));
      if IsSet(w.config.autoConnect) && permission then HandleConnect(w2, now, fetch, join) else w2
  }

  /**
    Unlike the stranded session after a microphone failure, a disconnect
    always makes a new session possible: the panel offers the enabled connect
    button, and pressing it sends a token request for the configured room.
   */
  lemma DisconnectAllowsReconnect(w: Widget, now: nat, fetch: LiveKitClient.FetchOutcome, join: LiveKitClient.JoinOutcome)
    requires w.client.Some?
    ensures var r := HandleDisconnect(w);
      var config := w.client.value.config;
      && PanelFor(r.conn, r.micEnabled).call == ConnectButton(false)
      && HandleConnect(r, now, fetch, join).requests ==
           r.requests + [TokenRequest(config.tokenEndpoint, config.roomName, LiveKitClient.ParticipantFor(config, now))]
  {
  }

  /** `handlePermissionRequest`: record the new permission; connect only when it is granted and auto-connect is set. */
  function HandlePermissionRequest(w: Widget, permission: bool,
                                   now: nat, fetch: LiveKitClient.FetchOutcome, join: LiveKitClient.JoinOutcome): (r: Widget)
    ensures r.hasPermission == permission
    ensures r.requests != w.requests ==> permission && IsSet(w.config.autoConnect)
    ensures !(permission && IsSet(w.config.autoConnect)) ==> r == w.(hasPermission := permission)
    ensures permission && IsSet(w.config.autoConnect) ==>
      r == HandleConnect(w.(hasPermission := permission), now, fetch, join)
  {
    var w1 := w.(hasPermission := permission);
    if permission && IsSet(w.config.autoConnect) then HandleConnect(w1, now, fetch, join) else w1
  }

  /** Without WebRTC the widget never holds a client, so the connect, disconnect and toggle handlers do nothing. */
  lemma UnsupportedWidgetIsInert(config: WidgetConfig, permission: bool, now: nat,
                                 fetch: LiveKitClient.FetchOutcome, join: LiveKitClient.JoinOutcome,
                                 switched: Outcome<LiveKitClient.Thrown>)
    ensures var w := Initialize(Mount(config), false, permission, now, fetch, join);
      && w.client.None?
      && w.reported == [LiveKitClient.ErrorObject(UnsupportedMessage)]
      && HandleConnect(w, now, fetch, join) == w
      && HandleDisconnect(w) == w
      && HandleToggle(w, switched) == w
      && HandlePermissionRequest(w, permission, now, fetch, join).requests == []
  {
  }

  // ---------------------------------------------------------------------------
  // What the compact panel shows.

  /** The status line: "connecting...", "connected", "connection error", "not connected". */
  datatype StatusText = ConnectingText | ConnectedText | ErrorText | NotConnectedText

  datatype StatusIcon = SpinnerIcon | CheckIcon | AlertIcon | OfflineIcon

  /** The quality indicator: a green, yellow or red signal icon, or the crossed-out one. */
  datatype QualityIcon = SignalGreen | SignalYellow | SignalRed | SignalOff

  datatype CallButton = ConnectButton(disabled: bool) | DisconnectButton

  /** An error string is shown only when it is present and non-empty (JavaScript truthiness). */
  predicate ShowsError(s: ConnectionState) {
    IsNonEmpty(s.error)
  }

  /** `getConnectionStatusText`: connecting beats connected beats error beats not connected. */
  function Status(s: ConnectionState): (t: StatusText)
    ensures t == ConnectingText <==> s.isConnecting
    ensures t == ConnectedText <==> !s.isConnecting && s.isConnected
    ensures t == ErrorText <==> !s.isConnecting && !s.isConnected && ShowsError(s)
    ensures t == NotConnectedText <==> !s.isConnecting && !s.isConnected && !ShowsError(s)
  {
    if s.isConnecting then ConnectingText
    else if s.isConnected then ConnectedText
    else if ShowsError(s) then ErrorText
    else NotConnectedText
  }

  /** The icon belonging to each status line. */
  function IconFor(t: StatusText): StatusIcon {
    match t
    case ConnectingText => SpinnerIcon
    case ConnectedText => CheckIcon
    case ErrorText => AlertIcon
    case NotConnectedText => OfflineIcon
  }

  /** `getConnectionStatusIcon`, decided by its own chain of tests; it always agrees with the status line. */
  function Icon(s: ConnectionState): (i: StatusIcon)
    ensures i == IconFor(Status(s))
  {
    if s.isConnecting then SpinnerIcon
    else if s.isConnected then CheckIcon
    else if s.error.Some? && s.error.value != "" then AlertIcon
    else OfflineIcon
  }

  /** Icon and status line determine each other. */
  lemma IconForInjective(t1: StatusText, t2: StatusText)
    requires IconFor(t1) == IconFor(t2)
    ensures t1 == t2
  {
  }

  /** `getConnectionQualityIcon`: the three grades get distinct signal icons, anything else the crossed-out one. */
  function QualityIndicator(q: Quality): (i: QualityIcon)
    ensures i == SignalOff <==> q == Unknown
  {
    match q
    case Excellent => SignalGreen
    case Good => SignalYellow
    case Poor => SignalRed
    case Unknown => SignalOff
  }

  /** Distinct known grades are told apart by the indicator. */
  lemma QualityIndicatorDistinct(q1: Quality, q2: Quality)
    requires q1 != q2 && q1 != Unknown
    ensures QualityIndicator(q1) != QualityIndicator(q2)
  {
  }

  /** The controls and indicators of the compact panel. */
  datatype Panel = Panel(
    micButtonEnabled: bool,
    micActive: bool,
    icon: StatusIcon,
    text: StatusText,
    quality: Option<QualityIcon>,
    call: CallButton,
    errorBanner: Option<string>)

  datatype Screen = UnsupportedScreen | PermissionScreen | MainScreen(panel: Panel)

  function PanelFor(s: ConnectionState, micEnabled: bool): (p: Panel)
    ensures p.micButtonEnabled <==> s.isConnected
    ensures p.call == DisconnectButton <==> s.isConnected
    ensures p.call.ConnectButton? ==> (p.call.disabled <==> s.isConnecting)
    ensures p.quality.Some? <==> s.isConnected
    ensures p.micActive == micEnabled
    ensures s.isConnected ==> p.quality == Some(QualityIndicator(s.connectionQuality))
    ensures p.errorBanner.Some? <==> ShowsError(s)
    ensures ShowsError(s) ==> p.errorBanner == s.error
    ensures p.text == Status(s) && p.icon == IconFor(p.text)
  {
    Panel(
      s.isConnected,
      micEnabled,
      Icon(s),
      Status(s),
      if s.isConnected then Some(QualityIndicator(s.connectionQuality)) else None,
      if s.isConnected then DisconnectButton else ConnectButton(s.isConnecting),
      if ShowsError(s) then s.error else None)
  }

  /**
    The connect button is offered, enabled, exactly when the status line reads
    "connection error" or "not connected", and shown disabled exactly while a
    connect runs from a disconnected state.
   */
  lemma ConnectOfferedWhenIdle(s: ConnectionState, micEnabled: bool)
    ensures PanelFor(s, micEnabled).call == ConnectButton(false) <==> Status(s) in {ErrorText, NotConnectedText}
    ensures PanelFor(s, micEnabled).call == ConnectButton(true) <==> Status(s) == ConnectingText && !s.isConnected
  {
  }

  /** With both flags raised the panel reads "connecting..." with its spinner, yet offers to hang up. */
  lemma BothFlagsPanel(s: ConnectionState, micEnabled: bool)
    requires LiveKitClient.BothFlags(s)
    ensures var p := PanelFor(s, micEnabled);
      p.text == ConnectingText && p.icon == SpinnerIcon && p.call == DisconnectButton && p.micButtonEnabled
  {
  }

  /** What the widget renders: the capability notice, the permission prompt, or the panel. */
  function View(w: Widget): (v: Screen)
    ensures v == UnsupportedScreen <==> !w.webRtcAvailable
    ensures v == PermissionScreen <==> w.webRtcAvailable && !w.hasPermission
    ensures v.MainScreen? ==> v.panel == PanelFor(w.conn, w.micEnabled)
  {
    if !w.webRtcAvailable then UnsupportedScreen
    else if !w.hasPermission then PermissionScreen
    else MainScreen(PanelFor(w.conn, w.micEnabled))
  }

  /**
    After a join whose microphone could not be switched on, the panel offers
    an enabled connect button and no disconnect button, yet pressing it sends
    no request: the session can only be left through a room event or a
    configuration change from the host page.
   */
  lemma MicrophoneFailureStrandsPanel(w: Widget, now: nat, fetch: LiveKitClient.FetchOutcome,
                                      name: string, n: nat, t: LiveKitClient.Thrown,
                                      now2: nat, fetch2: LiveKitClient.FetchOutcome, join2: LiveKitClient.JoinOutcome)
    requires w.client.Some? && !LiveKitClient.AlreadyConnected(w.client.value)
    requires LiveKitClient.FetchToken(fetch).Success?
    ensures var w1 := HandleConnect(w, now, fetch, LiveKitClient.MicrophoneFailed(name, n, t));
      && PanelFor(w1.conn, w1.micEnabled).call == ConnectButton(false)
      && HandleConnect(w1, now2, fetch2, join2).requests == w1.requests
  {
    LiveKitClient.MicrophoneFailureBlocksReconnect(w.client.value, now, fetch, name, n, t, now2, fetch2, join2);
  }
}
